=== FILE: README.md ===
# Portfolio shell: a verified model of its state machines

The portfolio site poses as an operating-system shell. It has:

- a global UI store;
- a contact "terminal" that walks a visitor through a mail form;
- a one-line command interpreter at the bottom of the screen;
- a file-search palette;
- a file-explorer sidebar;
- two content panels with foldable rows (skills and projects).

This project models each of these as immutable Dafny datatypes with pure
step functions, and proves what each step changes and what it leaves alone.

Modules follow the source files:

| module | models |
|---|---|
| `SystemStore` | `app/store/useSystemStore.ts`: the store record, its fixture of four files and its seven actions |
| `Contact` | `app/components/Viewport/Content/Contact.tsx`: the IDLE → NAME → SUBJECT → MESSAGE → CONFIRM wizard, its log and the `mailto:` URI (RFC 6068) |
| `StatusLine` | `app/components/StatusLine/StatusLine.tsx`: `executeCommand`, the output drawer and `handleSubmit` |
| `CommandPalette` | `app/components/CommandPalette/CommandPalette.tsx`: filtering, arrow/Enter/Escape handling, the reset on close |
| `Sidebar` | `app/components/Sidebar/Sidebar.tsx`: folder toggles, click-to-open/close, the folder fixture |
| `Skills` | `app/components/Viewport/Content/Skills.tsx`: section toggles, level colours, the JSON-like comma layout |
| `Projects` | `app/components/Viewport/Content/Projects.tsx`: single-row expansion, running count, link labels, PID in hexadecimal |
| `Strings`, `Flags`, `Wrappers` | shared helpers |

The helpers cover:

- `Strings`: ECMAScript `trim`, `toLowerCase` and `includes`;
- `Flags`: the `{ ...prev, [key]: !prev[key] }` record toggle;
- `Wrappers`: `Option`.

Timers only delay effects in the source. Here every delayed effect happens at
once. Effects outside the component are returned as data instead of being
performed: StatusLine's `ls` returns `OpenPalette` and `matrix` returns
`MatrixColors`.

Two inputs from the browser are parameters instead:

- `encodeURIComponent` is the parameter `enc`;
- the text printed by `date` is the parameter `now`.

The Contact log's timestamps are left out altogether (see "Left out").

## Model

| member | source | states |
|---|---|---|
| `SystemStore.Init` | app/store/useSystemStore.ts:28-38 | The store starts with no active file, both overlays closed, path `~/system`, and exactly the ids "1".."4", all distinct |
| `SystemStore.FindIndex` | app/store/useSystemStore.ts:43 | `find` returns the first file with the id, and nothing exactly when no file has it |
| `SystemStore.Find` | app/store/useSystemStore.ts:43 | The file found is the first in the list that carries the id, as `find` returns the first match; none is found exactly when the id is absent |
| `SystemStore.Cd` | app/store/useSystemStore.ts:40 | `cd` changes the current path and nothing else |
| `SystemStore.OpenFile` | app/store/useSystemStore.ts:42-45 | A known id becomes the active file, the path follows it and both palette and sidebar close; an unknown id leaves the whole store unchanged |
| `SystemStore.CloseFile` | app/store/useSystemStore.ts:47 | Closing clears the active file only; the path still names the last file |
| `SystemStore.ToggleCmdPalette` | app/store/useSystemStore.ts:49 | The palette flag flips and every other field stays |
| `SystemStore.SetCmdPalette` | app/store/useSystemStore.ts:50 | The palette flag takes the given value and every other field stays |
| `SystemStore.ToggleSidebar` | app/store/useSystemStore.ts:52 | The sidebar flag flips and every other field stays |
| `SystemStore.SetSidebar` | app/store/useSystemStore.ts:53 | The sidebar flag takes the given value and every other field stays |
| `SystemStore.OpenFileUnique` | app/store/useSystemStore.ts:42-45 | With distinct ids, opening id `x` activates the one file whose id is `x` |
| `SystemStore.OpenFileIdempotent` | app/store/useSystemStore.ts:42-45 | Opening the same id twice is the same as opening it once |
| `SystemStore.CloseKeepsLastPath` | app/store/useSystemStore.ts:42-47 | After open then close, nothing is active but the path is the opened file's |
| `SystemStore.CdLastWins` | app/store/useSystemStore.ts:40 | Of two `cd` calls, only the second counts |
| `SystemStore.TogglesAreInvolutions` | app/store/useSystemStore.ts:49-53 | Toggling either overlay twice restores the store exactly |
| `SystemStore.SettersIgnorePrior` | app/store/useSystemStore.ts:49-53 | The setters are idempotent and ignore the previous flag; a toggle is the setter applied to the negated flag |
| `SystemStore.StepPreservesValid` | app/store/useSystemStore.ts:33-53 | No action touches the file list, and the active file stays one of its entries |
| `SystemStore.RunPreservesValid` | app/store/useSystemStore.ts:33-53 | The same holds after any sequence of actions |
| `SystemStore.InitValid` | app/store/useSystemStore.ts:28-38 | The initial store satisfies that invariant |
| `SystemStore.Step` | app/store/useSystemStore.ts:40-53 | No action touches the file list. Only open and close change the active file, and close clears it. Only `cd` and open move the path |
| `SystemStore.Run` | app/store/useSystemStore.ts:40-53 | Any sequence of actions keeps the file list, and one without `cd` or open keeps the path |
| `Strings.Trim` | app/components/Viewport/Content/Contact.tsx:78 | `trim` yields the infix left after cutting only white space from both ends. Neither end of the result is white space, and the result is empty exactly for all-blank input |
| `Strings.TrimKeepsChars` | app/components/Viewport/Content/Contact.tsx:78 | Every character of the trimmed text is a character of the input |
| `Strings.TrimIdempotent` | app/components/Viewport/Content/Contact.tsx:78 | Trimming twice equals trimming once |
| `Strings.TrimOfTrimmed` | app/components/StatusLine/StatusLine.tsx:50 | A string with no white space at either end is its own trim |
| `Strings.ToLower` | app/components/StatusLine/StatusLine.tsx:50 | Lower-casing keeps the length and maps each character independently |
| `Strings.ToLowerIdempotent` | app/components/CommandPalette/CommandPalette.tsx:16 | Lower-casing twice equals once, and no capital letter survives it |
| `Strings.TrimToLowerCommute` | app/components/StatusLine/StatusLine.tsx:50 | Lower-casing then trimming gives the same text as trimming then lower-casing |
| `Strings.ContainsIff` | app/components/CommandPalette/CommandPalette.tsx:16 | The search `includes` succeeds exactly when the needle occurs at some index of the text |
| `Strings.ContainsEmpty` | app/components/CommandPalette/CommandPalette.tsx:16 | Every text contains the empty string |
| `Strings.SplitFirst` | app/components/Viewport/Content/Contact.tsx:140 | Splitting at the first separator gives a left part free of it that rejoins to the input; there is no split exactly when the separator is absent |
| `Strings.SplitFirstJoin` | app/components/Viewport/Content/Contact.tsx:140 | Joining a separator-free left part to any right part and splitting again recovers both parts |
| `Contact.Init` | app/components/Viewport/Content/Contact.tsx:23-42 | The wizard starts IDLE with an empty form and input, and two SYSTEM log lines |
| `Contact.StatusLabel` | app/components/Viewport/Content/Contact.tsx:182 | The header reads "IDLE" exactly when the step is IDLE, and "UPLINK ACTIVE" exactly otherwise |
| `Contact.ParseMailto` | app/components/Viewport/Content/Contact.tsx:140 | Whatever a URI parses into composes back into that very URI |
| `Contact.ParseCompose` | app/components/Viewport/Content/Contact.tsx:140 | A composed `mailto:` URI parses back into its address, subject and body when the address has no `?` and the subject no `&` |
| `Contact.MailtoRoundTrip` | app/components/Viewport/Content/Contact.tsx:140 | The URI opened on "send" is, part for part, the fixed address, then `[PORTFOLIO] ` + the encoded subject, then `Sender: ` + encoded name + `%0D%0A%0D%0A` + encoded message |
| `Contact.MailtoLink` | app/components/Viewport/Content/Contact.tsx:140 | Whatever the answers, the link begins with `mailto:`, the fixed address and `?subject=[PORTFOLIO] ` |
| `Contact.Advance` | app/components/Viewport/Content/Contact.tsx:82-157 | In IDLE only "start"/"hello" in any case move to NAME. NAME, SUBJECT and MESSAGE store the text in their own field and move one step on. CONFIRM always returns to IDLE, and mail opens exactly for "send", clearing the form. Each branch's SYSTEM replies are stated: the NAME prompt or the "start" hint in IDLE, the confirmation quoting the trimmed name, the MESSAGE and CONFIRM prompts, the two success lines after "send", and the abort line otherwise |
| `Contact.ProcessCommand` | app/components/Viewport/Content/Contact.tsx:77-158 | The trimmed command is logged as GUEST right after the old log, which is kept intact. Exactly the step logic's replies follow it as SYSTEM lines, in order. The step, form and URI are those of the step logic |
| `Contact.SetInput` | app/components/Viewport/Content/Contact.tsx:23 | Typing replaces the input and nothing else |
| `Contact.Submit` | app/components/Viewport/Content/Contact.tsx:160-165 | Blank input changes nothing at all. Any other input is logged as its trimmed GUEST line followed by the replies `Advance` gives, as SYSTEM lines, and the box is emptied. The wizard's next step, form and mailto are those `Advance` gives for the trimmed line |
| `Contact.Session` | app/components/Viewport/Content/Contact.tsx:160-165 | After one or more submissions the box is empty, unless the last line typed was blank: that line is ignored and stays in the box |
| `Contact.SessionLogGrows` | app/components/Viewport/Content/Contact.tsx:66-75 | No sequence of submissions removes or alters an existing log line |
| `Contact.GreetingStays` | app/components/Viewport/Content/Contact.tsx:31-42 | The two opening SYSTEM lines head the log for ever |
| `Contact.WizardSendsMail` | app/components/Viewport/Content/Contact.tsx:83-151 | "start", a name, a subject, a message, then "send" reach CONFIRM and open the URI built from the three trimmed answers. The form is left IDLE and empty |
| `Contact.CancelKeepsAnswers` | app/components/Viewport/Content/Contact.tsx:152-155 | Any reply other than "send" at CONFIRM aborts to IDLE without mail and without clearing the answers |
| `StatusLine.Init` | app/components/StatusLine/StatusLine.tsx:15-19 | The terminal starts with empty output, closed drawer, empty input, NORMAL mode |
| `StatusLine.Normalize` | app/components/StatusLine/StatusLine.tsx:50 | The text the switch sees is no longer than the input, has no capital letter and no white space at either end, and is empty exactly when the input is all blank |
| `StatusLine.NormalizeOfNormalized` | app/components/StatusLine/StatusLine.tsx:50 | Text already lower-case and trimmed is switched on exactly as typed |
| `StatusLine.Parse` | app/components/StatusLine/StatusLine.tsx:50-113 | A known command is selected only by a line whose normalised text is its keyword |
| `StatusLine.ParseKeyword` | app/components/StatusLine/StatusLine.tsx:50-113 | Conversely, a line selects a known command exactly when its normalised text is that command's keyword |
| `StatusLine.LookupKeyword` | app/components/StatusLine/StatusLine.tsx:54-113 | Each keyword selects its own command, and a word selects a command exactly when it is that command's keyword |
| `StatusLine.NotFoundIff` | app/components/StatusLine/StatusLine.tsx:111-113 | Exactly the words that are no keyword reach the "not found" branch |
| `StatusLine.Infos` | app/components/StatusLine/StatusLine.tsx:44-47 | Logging lines as info keeps their number, order and text |
| `StatusLine.Replies` | app/components/StatusLine/StatusLine.tsx:54-113 | Each command appends, after its echo, 8 entries for help, 2 for weather, none for clear or exit and 1 otherwise. They are error entries exactly for an unknown command |
| `StatusLine.Apply` | app/components/StatusLine/StatusLine.tsx:44-115 | `clear` empties the output, echo included, and closes the drawer. `exit` keeps every entry and closes it. Every other command opens the drawer, and its whole output is the old output, the echo of the text as typed, then its replies: help's eight lines as info entries in order; "Executing file_picker.exe..." as success for `ls`; the NOAA uplink line as info then the MARS line as success for `weather`; the uid line as success for `whoami`; the `now` text as success for `date`; the colour-scheme line as success for `matrix`; and "Command not found", quoting the text as typed, as an error for anything else. Only `ls` asks for the palette and only `matrix` recolours |
| `StatusLine.Execute` | app/components/StatusLine/StatusLine.tsx:49-115 | The same outputs, chosen by the lower-cased, trimmed text, while the echo and the error quote the text as typed |
| `StatusLine.SetInput` | app/components/StatusLine/StatusLine.tsx:175 | Typing replaces the input only |
| `StatusLine.Focus` | app/components/StatusLine/StatusLine.tsx:176-177 | Focus shows INSERT, blur shows NORMAL, nothing else changes |
| `StatusLine.CloseDrawer` | app/components/StatusLine/StatusLine.tsx:141 | The close button hides the drawer and keeps the output |
| `StatusLine.Submit` | app/components/StatusLine/StatusLine.tsx:117-123 | The empty string does nothing. Anything else, blanks included, is executed with all its effects (the palette request of `ls`, the recolour of `matrix`), after which the prompt is empty and NORMAL |
| `StatusLine.CaseAndBlanksIgnored` | app/components/StatusLine/StatusLine.tsx:50-54 | Two inputs with the same lower-cased, trimmed text do the same thing to the drawer and the page |
| `StatusLine.ApplyIgnoresText` | app/components/StatusLine/StatusLine.tsx:52-113 | Once the command is chosen, the text it was typed as changes neither the drawer, nor the number of entries, nor the effects on the page |
| `StatusLine.PaddedHelpIsHelp` | app/components/StatusLine/StatusLine.tsx:50-64 | " HELP " runs help: echo plus eight lines |
| `StatusLine.ParsePaddedHelp` | app/components/StatusLine/StatusLine.tsx:50 | " HELP " normalises to the help keyword |
| `StatusLine.BlankIsNotFound` | app/components/StatusLine/StatusLine.tsx:111-123 | A submitted all-blank line is not filtered: it echoes and reports "not found", output growing by two |
| `StatusLine.ClearForgets` | app/components/StatusLine/StatusLine.tsx:71-74 | After `clear` the drawer is as at start, with the prompt untouched |
| `CommandPalette.Filter` | app/components/CommandPalette/CommandPalette.tsx:16 | The listed files are exactly those whose name contains the query, ignoring case, in their original order. Each matching file is listed as often as it occurs in the store, and no other file at all |
| `CommandPalette.EmptyQueryListsAll` | app/components/CommandPalette/CommandPalette.tsx:16 | The empty query lists every file |
| `CommandPalette.JsRem` | app/components/CommandPalette/CommandPalette.tsx:33-36 | JavaScript `%` truncates: for some integer quotient `q`, `a = q*n + r`, with `r` strictly between `-abs(n)` and `abs(n)` and of the dividend's sign |
| `CommandPalette.JsRemNatural` | app/components/CommandPalette/CommandPalette.tsx:33 | On a non-negative dividend and positive divisor the truncating remainder is the ordinary one |
| `CommandPalette.EmptyListLosesSelection` | app/components/CommandPalette/CommandPalette.tsx:33-41 | As written, an arrow over an empty list makes the selection NaN. It stays NaN when rows return, and Enter then opens nothing |
| `CommandPalette.ArrowDownAsWritten` | app/components/CommandPalette/CommandPalette.tsx:33 | As written, ArrowDown gives NaN exactly when the selection is NaN or nothing is listed. Otherwise it gives `prev + 1` less a multiple of the list length, inside the list from any selection of at least -1 |
| `CommandPalette.ArrowUpAsWritten` | app/components/CommandPalette/CommandPalette.tsx:36 | As written, ArrowUp gives NaN exactly when the selection is NaN or nothing is listed. Otherwise it gives `prev - 1 + n` less a multiple of `n`, inside the list from any selection of at least `1 - n` |
| `CommandPalette.ArrowDown` | app/components/CommandPalette/CommandPalette.tsx:33 | Corrected: with rows listed it moves as written, and from a non-negative selection lands inside the list. With none listed the selection stays, where the source gives NaN |
| `CommandPalette.ArrowUp` | app/components/CommandPalette/CommandPalette.tsx:36 | Corrected likewise for `(i - 1 + n) % n` |
| `CommandPalette.ArrowsUndoEachOther` | app/components/CommandPalette/CommandPalette.tsx:33-36 | Within the list, up undoes down and down undoes up, for the source's arrows and the corrected ones alike |
| `CommandPalette.ArrowDownTimesWraps` | app/components/CommandPalette/CommandPalette.tsx:33 | `k` presses of the source's ArrowDown move `k` rows on, modulo the list length |
| `CommandPalette.FullCircle` | app/components/CommandPalette/CommandPalette.tsx:33 | `n` presses of the source's ArrowDown return to the starting row |
| `CommandPalette.EnterTarget` | app/components/CommandPalette/CommandPalette.tsx:39-41 | Enter names a file exactly when the selection is an index inside the list, and then the file at that index |
| `CommandPalette.Settle` | app/components/CommandPalette/CommandPalette.tsx:18-25 | Whenever the store reports the palette closed, the query is empty and the first row selected |
| `CommandPalette.Arrow` | app/components/CommandPalette/CommandPalette.tsx:31-36 | The source's handlers give `ArrowDownAsWritten`/`ArrowUpAsWritten` and the corrected ones `ArrowDown`/`ArrowUp`. A non-negative index over a non-empty list stays inside it. Over an empty list the source's handlers give NaN and the corrected ones keep the selection. NaN stays NaN |
| `CommandPalette.HandleKey` | app/components/CommandPalette/CommandPalette.tsx:28-45 | Keys do nothing while closed. Escape closes and resets. Enter opens the selected listed file and resets, or does nothing. Other keys do nothing. An arrow changes only the selection, to what `Arrow` gives for the chosen handlers: `(prev + 1) % n` for ArrowDown and `(prev - 1 + n) % n` for ArrowUp. From a non-negative index over a non-empty list it lands inside the list. Over an empty list the arrows as written give NaN, while the corrected ones change nothing. A NaN selection stays NaN |
| `CommandPalette.Handle` | app/components/CommandPalette/CommandPalette.tsx:28-79 | Events on a closed palette do nothing. A key press on an open palette is handled as `HandleKey` states. Typing changes the query only. Hovering a listed row selects it. Clicking a listed row opens its file and resets the palette. A backdrop click closes and resets |
| `CommandPalette.Run` | app/components/CommandPalette/CommandPalette.tsx:28-79 | No events change nothing, and no events change a closed palette |
| `CommandPalette.RunAppend` | app/components/CommandPalette/CommandPalette.tsx:28-79 | Handling two batches of events one after the other is the same as handling them as one sequence |
| `CommandPalette.TogglePalette` | app/components/CommandPalette/CommandPalette.tsx:18-25 | Opening or closing goes through the store's toggle, and a close leaves the palette fresh |
| `CommandPalette.HandleKeepsSettled` | app/components/CommandPalette/CommandPalette.tsx:18-79 | With either version of the arrows, every event keeps a closed palette fresh and never makes the selection a negative index |
| `CommandPalette.RunKeepsSettled` | app/components/CommandPalette/CommandPalette.tsx:18-79 | The same holds after any sequence of events |
| `CommandPalette.HandlePreservesSound` | app/components/CommandPalette/CommandPalette.tsx:18-79 | With the corrected arrows, every event also keeps the selection a number |
| `CommandPalette.SelectionStaysNumeric` | app/components/CommandPalette/CommandPalette.tsx:33-36 | With the corrected arrows, no event sequence makes the selection NaN |
| `CommandPalette.StrandedSelection` | app/components/CommandPalette/CommandPalette.tsx:16-41 | With a query that lists nothing, take ArrowDown, then clearing the query, then Enter. As written the palette stays open with a NaN selection and the store untouched. Corrected, the same events open the first file |
| `CommandPalette.CloseResets` | app/components/CommandPalette/CommandPalette.tsx:19-24 | With either version of the arrows, Escape, a backdrop click and the toggle all leave an empty query and the first row selected |
| `Flags.Flip` | app/components/Sidebar/Sidebar.tsx:50-52 | Toggling a key flips it and keeps every other entry of the record |
| `Flags.FlipTwice` | app/components/Sidebar/Sidebar.tsx:50-52 | Toggling a key twice shows every key as before |
| `Sidebar.InitFolders` | app/components/Sidebar/Sidebar.tsx:44-48 | All three folders start open |
| `Sidebar.ToggleFolder` | app/components/Sidebar/Sidebar.tsx:50-52 | A folder click flips that folder only |
| `Sidebar.ToggleFolderTwice` | app/components/Sidebar/Sidebar.tsx:50-52 | Two clicks on a folder restore every folder; the record itself is restored for a known key |
| `Sidebar.HandleFileClick` | app/components/Sidebar/Sidebar.tsx:54-60 | A click on the active file closes it; a click on any other file opens it |
| `Sidebar.ClickOpens` | app/components/Sidebar/Sidebar.tsx:54-60 | A click on a known, inactive file makes it the active one |
| `Sidebar.TwoClicksClose` | app/components/Sidebar/Sidebar.tsx:54-60 | From inactive, two clicks on a file leave nothing active |
| `Sidebar.UnknownClickIgnored` | app/components/Sidebar/Sidebar.tsx:54-60 | In a valid store, a click on an id the store does not know changes nothing |
| `Sidebar.Rows` | app/components/Sidebar/Sidebar.tsx:62-84 | A file is a row exactly when some folder holds it, and there are as many rows as the folders hold files together |
| `Sidebar.RowsAt` | app/components/Sidebar/Sidebar.tsx:120-147 | Folder `k`'s `j`-th file is the row right after the files of all folders above it plus `j`, so folders and files appear in order, each once |
| `Sidebar.AtMostOneActive` | app/components/Sidebar/Sidebar.tsx:148 | With distinct ids at most one row is highlighted, and one is exactly when the active id is listed |
| `Sidebar.ShippedRows` | app/components/Sidebar/Sidebar.tsx:62-84 | The folders list README.md, config.json, projects.exe and connect.sh, in that order |
| `Sidebar.ShippedIdsDistinct` | app/components/Sidebar/Sidebar.tsx:62-84 | No file id appears in two rows of the shipped folders |
| `Sidebar.GroupsMatchStore` | app/components/Sidebar/Sidebar.tsx:62-84 | Each of the store's four files appears in exactly one row, under the store's own name |
| `Sidebar.AtMostOneHighlighted` | app/components/Sidebar/Sidebar.tsx:148 | In the shipped sidebar, whatever the store, at most one row is highlighted |
| `Skills.LevelColorsDistinct` | app/components/Viewport/Content/Skills.tsx:58-71 | Each level has a non-empty colour class of its own |
| `Skills.LevelColor` | app/components/Viewport/Content/Skills.tsx:58-71 | Each level gets a non-empty class, and exactly `expert` carries a second class |
| `Skills.InitSections` | app/components/Viewport/Content/Skills.tsx:74-76 | Every category starts open, and the record has no other keys |
| `Skills.ToggleSection` | app/components/Viewport/Content/Skills.tsx:78-80 | A header click flips that category, and every other category renders exactly as before |
| `Skills.ToggleSectionTwice` | app/components/Viewport/Content/Skills.tsx:78-80 | Two clicks on a category restore every category |
| `Skills.Header` | app/components/Viewport/Content/Skills.tsx:127-131 | A key line starts with the quoted category name. It opens a nested object exactly when the category is open, ends in a comma exactly when it is folded, and is never a closing brace |
| `Skills.ToolLine` | app/components/Viewport/Content/Skills.tsx:143-152 | A tool line starts with the quoted tool name and ends in a comma exactly when another tool follows. It neither opens nor closes an object |
| `Skills.Closing` | app/components/Viewport/Content/Skills.tsx:160-164 | The closing line is a lone brace, with a comma exactly when the category is not last |
| `Skills.RenderCategory` | app/components/Viewport/Content/Skills.tsx:127-165 | An open category renders its key line first, then tool `j` on line `j + 1` with a comma unless it is the last tool, then its closing brace last. A folded one renders only its folded key line |
| `Skills.Render` | app/components/Viewport/Content/Skills.tsx:108-168 | The object body is empty exactly when there are no categories. It starts with the first category's key line, and its last line ends in a comma exactly when the last category is folded |
| `Skills.ToolCommaIff` | app/components/Viewport/Content/Skills.tsx:150-152 | A comma follows tool `i` exactly when it is not the category's last tool |
| `Skills.BraceCommas` | app/components/Viewport/Content/Skills.tsx:130-164 | An open category's brace has a comma exactly when the category is not last. Its key line has none, and a folded key line always has one |
| `Skills.ToolLinesCommas` | app/components/Viewport/Content/Skills.tsx:150-152 | The tool lines of a category carry one comma fewer than there are tools |
| `Skills.AllOpenIsWellSeparated` | app/components/Viewport/Content/Skills.tsx:108-164 | With every category open, the object has exactly the commas JSON needs, between tools and between categories. Line by line, a comma follows exactly the members that another member follows, and never an opening brace or the line before a closing brace |
| `Skills.RenderWellSeparatedIff` | app/components/Viewport/Content/Skills.tsx:108-168 | As written, every line carries a comma exactly where JSON puts one if and only if the last category is open (or there are none) |
| `Skills.OpenCategoryCommas` | app/components/Viewport/Content/Skills.tsx:150-164 | An open category adds its tool separators and one more after its brace unless it is last |
| `Skills.AllFoldedTrailingComma` | app/components/Viewport/Content/Skills.tsx:130 | As written, with every category folded each line ends in a comma, the last too: one comma more than JSON allows, so the line-by-line rule fails |
| `Skills.ShippedPanel` | app/components/Viewport/Content/Skills.tsx:15-76 | The shipped panel has seven categories and opens with its commas exactly where JSON puts them, counted and line by line |
| `Skills.HeaderCorrected` | app/components/Viewport/Content/Skills.tsx:130 | The corrected folded key line ends in a comma exactly when the category is not last, and is otherwise the key line as written |
| `Skills.RenderCorrected` | app/components/Viewport/Content/Skills.tsx:108-168 | The corrected body is empty exactly when there are no categories, and never starts with a closing brace |
| `Skills.CorrectedPositions` | app/components/Viewport/Content/Skills.tsx:108-168 | In every fold state, each corrected line carries a comma exactly where JSON puts one |
| `Skills.RenderMatchesCorrected` | app/components/Viewport/Content/Skills.tsx:108-168 | The corrected and the as-written renderings are identical whenever the last category is open |
| `Skills.CorrectedIsWellSeparated` | app/components/Viewport/Content/Skills.tsx:130-164 | With the corrected folded key line, every fold state renders exactly the commas JSON needs, each in its place, and the last line never ends in a comma |
| `Skills.CorrectedAgreesWhenOpen` | app/components/Viewport/Content/Skills.tsx:130-164 | With every category open, the corrected rendering equals the rendering as written |
| `Skills.ShippedAllFolded` | app/components/Viewport/Content/Skills.tsx:15-55 | All seven shipped categories folded render seven commas as written, six when corrected |
| `Projects.StatusIcon` | app/components/Viewport/Content/Projects.tsx:77-88 | running, sleeping and killed each get their own icon, and every other status the default |
| `Projects.ZombieIsDefault` | app/components/Viewport/Content/Projects.tsx:71-88 | A zombie falls to the default icon, and no other status does |
| `Projects.ToggleProject` | app/components/Viewport/Content/Projects.tsx:92-93 | A click on the expanded row folds it; any other click makes that row the sole expanded one |
| `Projects.ToggleTwice` | app/components/Viewport/Content/Projects.tsx:92-93 | Two clicks on a row that was not expanded leave none expanded |
| `Projects.AtMostOneExpanded` | app/components/Viewport/Content/Projects.tsx:128 | With distinct commands at most one row is expanded, and none when nothing is selected |
| `Projects.ShippedKeys` | app/components/Viewport/Content/Projects.tsx:26-75 | The four commands are distinct although the PIDs 2026 and 2025 each repeat |
| `Projects.RunningCount` | app/components/Viewport/Content/Projects.tsx:106 | The RUNNING figure is at most the table size. It is zero exactly when nothing runs, and the full size exactly when everything does |
| `Projects.RunningCountAppend` | app/components/Viewport/Content/Projects.tsx:106 | The count of a joined table is the sum of the parts' counts |
| `Projects.ShippedCounts` | app/components/Viewport/Content/Projects.tsx:104-106 | The header shows four tasks, one of them running |
| `Projects.LabelFor` | app/components/Viewport/Content/Projects.tsx:211-217 | A link reads SOURCE exactly when "github" occurs in its URL, VIEW otherwise |
| `Projects.ShippedSourceLink` | app/components/Viewport/Content/Projects.tsx:73 | The aurora-music link reads SOURCE |
| `Projects.ShippedViewLinks` | app/components/Viewport/Content/Projects.tsx:37-61 | The other three links read VIEW |
| `Projects.ToHex` | app/components/Viewport/Content/Projects.tsx:227 | The PID prints as lower-case hexadecimal digits with no leading zero |
| `Projects.HexRoundTrip` | app/components/Viewport/Content/Projects.tsx:227 | Reading the printed digits back gives the PID: the hexadecimal display loses nothing |
| `Projects.ThreadId` | app/components/Viewport/Content/Projects.tsx:227 | The THREAD_ID reads `0x` followed by hexadecimal digits that read back as the PID |
| `Projects.ShippedThreadIds` | app/components/Viewport/Content/Projects.tsx:227 | The table's PIDs show as `7ea` and `7e9` |

## Left out

- Timers: every `setTimeout` in Contact, StatusLine and CommandPalette applies its effect at once. The window in which a Contact reply is still pending is not modelled. In particular, after "send" the step is still CONFIRM for 500 ms in the source.
- Contact log timestamps (`getTime`) and the unused `action` field of a log entry: clock text and a field no path sets.
- `window.open` in Contact: the URI it would open is returned in `Reply.mailto`.
- `encodeURIComponent`: an opaque parameter `enc`. `Contact.MailtoRoundTrip` assumes only that its output has no `&`.
- StatusLine's `date` text and the clock: the `now` parameter stands for the formatted date.
- The colour variables written by `matrix` and the delayed `setCmdPalette(true)` of `ls`: returned as effects, not performed.
- `Strings.ToLower`: lower-cases ASCII `A`-`Z` only, because Unicode case mapping is outside the model. All the keywords and file names involved are ASCII.
- `Strings.Trim`: uses the ECMAScript white-space and line-terminator code points of BMP characters. Nothing beyond them is modelled.
- Projects: the per-row CPU figure and the LOAD AVG division are floating point. The description texts are display prose that no behaviour reads.
- The boot screen, idle screen, activity graph, shell, viewport, overview and layout: timers, randomness, browser storage and static markup outside these state machines. The shell reaches the store in two places, both through actions modelled in `SystemStore`: its `localStorage` boot flag calls `openFile("1")` (app/components/Shell/Shell.tsx:19-23), and its Ctrl/Cmd+K listener calls `toggleCmdPalette` (app/components/Shell/Shell.tsx:25-34).
- The palette's arrow handlers come in two versions, selected by the `Arrows` parameter: `AsWritten` follows the source and `Corrected` leaves the selection alone over an empty list. Only `SelectionStaysNumeric` and `HandlePreservesSound` are stated for the corrected version alone. `ArrowDownTimesWraps` and `FullCircle` are stated for the source's arrows, and `ArrowsUndoEachOther` for both. For a non-empty list the two versions agree, as the contracts of `ArrowDown` and `ArrowUp` state. The other palette contracts hold for both versions.
- Focus, scrolling, CSS classes, icons beyond the status/link choice, and framer-motion animations: presentation only.
- Sidebar's backdrop and close button call `setSidebar(false)`, which is `SystemStore.SetSidebar`; their rendering is not modelled.

## Findings

| source | as written | input that shows it | evidently intended | confidence | as-written member | corrected member |
|---|---|---|---|---|---|---|
| app/components/CommandPalette/CommandPalette.tsx:33-36 | `(prev + 1) % filteredFiles.length` and `(prev - 1 + n) % n` with `n = 0` give NaN, and NaN stays NaN | query "zzz" (no match), press ArrowDown, then clear the query: no row is highlighted and Enter opens nothing until a row is hovered or the palette closes | arrows do nothing while the list is empty | not executed; follows from JavaScript's `x % 0 === NaN` | `CommandPalette.StrandedSelection` | `CommandPalette.SelectionStaysNumeric` |
| app/components/Viewport/Content/Skills.tsx:130 | a folded category's key line is always `{ ... },` | fold "tooling", the last category: the object ends `"tooling": { ... },` right before its closing `}` | the comma only between categories, as line 163 does for the closing brace | not executed; read from the markup | `Skills.RenderWellSeparatedIff` | `Skills.CorrectedIsWellSeparated` |

=== FILE: command_palette.dfy ===
/**
  The command palette: a search box over the store's files with a keyboard
  selection. The selected index is a JavaScript number, so the model keeps
  the NaN it becomes when an arrow key is pressed over an empty result list.
*/
module CommandPalette {

  import opened Wrappers
  import opened Strings
  import S = SystemStore

  /** A file is listed when its name contains the query, ignoring letter case. */
  predicate Matches(f: S.FileNode, query: string) {
    Contains(ToLower(f.name), ToLower(query))
  }

  /** `xs` is `ys` with some elements left out, the rest in their original order. */
  predicate IsSubsequence<T(==)>(xs: seq<T>, ys: seq<T>)
    decreases |ys|
  {
    if |xs| == 0 then true
    else if |ys| == 0 then false
    else if xs[0] == ys[0] then IsSubsequence(xs[1..], ys[1..])
    else IsSubsequence(xs, ys[1..])
  }

  /** `files.filter(f => f.name.toLowerCase().includes(query.toLowerCase()))` */
  function Filter(files: seq<S.FileNode>, query: string): (r: seq<S.FileNode>)
    ensures |r| <= |files|
    ensures forall f :: f in r <==> f in files && Matches(f, query)
    ensures IsSubsequence(r, files)
    ensures forall f :: multiset(r)[f] == if Matches(f, query) then multiset(files)[f] else 0
  {
    if |files| == 0 then []
    else
      var rest := Filter(files[1..], query);
      assert files == [files[0]] + files[1..];
      FilterMemberStep(files[0], files[1..], rest, query);
      FilterCountStep(files[0], files[1..], rest, query);
      if Matches(files[0], query) then [files[0]] + rest else rest
  }

  /** One step of the filter keeps exactly the matching files, in order. */
  lemma FilterMemberStep(x: S.FileNode, tail: seq<S.FileNode>, rest: seq<S.FileNode>, query: string)
    requires forall f :: f in rest <==> f in tail && Matches(f, query)
    requires IsSubsequence(rest, tail)
    ensures var r := if Matches(x, query) then [x] + rest else rest;
      && (forall f :: f in r <==> f in [x] + tail && Matches(f, query))
      && IsSubsequence(r, [x] + tail)
  {
    assert ([x] + tail)[1..] == tail;
    assert forall f :: f in [x] + tail <==> f == x || f in tail;
    if Matches(x, query) {
      assert ([x] + rest)[1..] == rest;
    } else if |rest| > 0 {
      assert rest[0] in tail;
    }
  }

  /** One step of the filter keeps each file's count: kept in full when it matches, dropped otherwise. */
  lemma FilterCountStep(x: S.FileNode, tail: seq<S.FileNode>, rest: seq<S.FileNode>, query: string)
    requires forall f :: multiset(rest)[f] == if Matches(f, query) then multiset(tail)[f] else 0
    ensures var r := if Matches(x, query) then [x] + rest else rest;
      forall f :: multiset(r)[f] == if Matches(f, query) then multiset([x] + tail)[f] else 0
  {
    assert multiset([x] + tail) == multiset([x]) + multiset(tail);
    assert multiset([x] + rest) == multiset([x]) + multiset(rest);
  }

  /** The empty query lists every file, in order. */
  lemma {:induction false} EmptyQueryListsAll(files: seq<S.FileNode>)
    ensures Filter(files, "") == files
  {
    if |files| > 0 {
      ContainsEmpty(ToLower(files[0].name));
      EmptyQueryListsAll(files[1..]);
    }
  }

  /** The palette's selected index, a JavaScript number that may be NaN. */
  datatype Sel = Index(i: int) | NaN

  /**
    JavaScript's `%`: the quotient is truncated toward zero, so the remainder
    is smaller than the divisor in magnitude and takes the dividend's sign.
  */
  function JsRem(a: int, n: int): (r: int)
    requires n != 0
    ensures -Abs(n) < r < Abs(n)
    ensures a >= 0 ==> r >= 0
    ensures a <= 0 ==> r <= 0
    ensures exists q :: a == q * n + r
  {
    var k := Abs(a) % Abs(n);
    TruncWitness(a, n, k);
    if a >= 0 then k else -k
  }

  function Abs(n: int): int {
    if n < 0 then -n else n
  }

  /** A quotient of `a` by `n` that leaves the remainder `Abs(a) % Abs(n)`, signed like `a`. */
  lemma TruncWitness(a: int, n: int, k: int)
    requires n != 0 && k == Abs(a) % Abs(n)
    ensures 0 <= k < Abs(n)
    ensures exists q :: a == q * n + (if a >= 0 then k else -k)
  {
    var m, b := Abs(n), Abs(a);
    var p := b / m;
    assert b == p * m + k;
    if a >= 0 && n > 0 {
      assert a == p * n + k;
    } else if a >= 0 {
      assert p * m == (-p) * n;
      assert a == (-p) * n + k;
    } else if n > 0 {
      assert -(p * n) == (-p) * n;
      assert a == (-p) * n + -k;
    } else {
      assert -(p * m) == p * n;
      assert a == p * n + -k;
    }
  }

  /** On a non-negative dividend and a positive divisor, truncation and Dafny's `%` agree. */
  lemma JsRemNatural(a: int, n: int)
    requires a >= 0 && n > 0
    ensures JsRem(a, n) == a % n
  {
  }

  /** ArrowDown as written: `(prev + 1) % n`, NaN once `n` is 0 or `prev` is NaN. */
  function ArrowDownAsWritten(sel: Sel, n: nat): (r: Sel)
    ensures r.NaN? <==> sel.NaN? || n == 0
    ensures r.Index? && sel.i >= -1 ==> 0 <= r.i < n
    ensures r.Index? ==> exists q :: sel.i + 1 == q * n + r.i
  {
    if sel.NaN? || n == 0 then NaN else Index(JsRem(sel.i + 1, n))
  }

  /** ArrowUp as written: `(prev - 1 + n) % n`, NaN once `n` is 0 or `prev` is NaN. */
  function ArrowUpAsWritten(sel: Sel, n: nat): (r: Sel)
    ensures r.NaN? <==> sel.NaN? || n == 0
    ensures r.Index? && sel.i >= 1 - n ==> 0 <= r.i < n
    ensures r.Index? ==> exists q :: sel.i - 1 + n == q * n + r.i
  {
    if sel.NaN? || n == 0 then NaN else Index(JsRem(sel.i - 1 + n, n))
  }

  /**
    The arrows over an empty result list make the selection NaN, and it stays
    NaN after the list fills again: no row is highlighted and Enter opens
    nothing until the palette is closed or a row is hovered.
  */
  lemma EmptyListLosesSelection(files: seq<S.FileNode>)
    requires |files| > 0
    ensures ArrowDownAsWritten(Index(0), 0) == NaN
    ensures ArrowUpAsWritten(Index(0), 0) == NaN
    ensures ArrowDownAsWritten(NaN, |files|) == NaN && ArrowUpAsWritten(NaN, |files|) == NaN
    ensures EnterTarget(files, NaN) == None
  {
  }

  /** The corrected ArrowDown: leave the selection alone when nothing is listed. */
  function ArrowDown(sel: Sel, n: nat): (r: Sel)
    ensures n > 0 && sel.Index? && sel.i >= 0 ==> r.Index? && 0 <= r.i < n
    ensures n == 0 ==> r == sel
    ensures n > 0 ==> r == ArrowDownAsWritten(sel, n)
  {
    if n == 0 then sel else ArrowDownAsWritten(sel, n)
  }

  /** The corrected ArrowUp: leave the selection alone when nothing is listed. */
  function ArrowUp(sel: Sel, n: nat): (r: Sel)
    ensures n > 0 && sel.Index? && sel.i >= 0 ==> r.Index? && 0 <= r.i < n
    ensures n == 0 ==> r == sel
    ensures n > 0 ==> r == ArrowUpAsWritten(sel, n)
  {
    if n == 0 then sel else ArrowUpAsWritten(sel, n)
  }

  /** From a row inside the list, ArrowDown moves to the next row modulo the length. */
  lemma NextIndex(j: int, n: nat)
    requires 0 <= j < n
    ensures ArrowDown(Index(j), n) == Index((j + 1) % n)
  {
    JsRemNatural(j + 1, n);
  }

  /** Euclidean division is unique: any quotient/remainder split of `a` is the one `/` and `%` give. */
  lemma ModUnique(a: int, n: int, q: int, r: int)
    requires n > 0 && 0 <= r < n && a == q * n + r
    ensures a % n == r
  {
    var q', r' := a / n, a % n;
    assert (q' - q) * n == r - r';
    MulBound(q' - q, n);
  }

  /** A non-zero multiple of `n` is at least `n` away from zero. */
  lemma MulBound(x: int, n: int)
    requires n > 0
    ensures x >= 1 ==> x * n >= n
    ensures x <= -1 ==> x * n <= -n
  {
    assert x * n == (x - 1) * n + n;
    assert x * n == (x + 1) * n - n;
    if x >= 1 {
      assert (x - 1) * n >= 0;
    }
    if x <= -1 {
      assert (x + 1) * n <= 0;
    }
  }

  /** Within the list, each arrow undoes the other. */
  lemma ArrowsUndoEachOther(i: int, n: nat)
    requires 0 <= i < n
    ensures ArrowUp(ArrowDown(Index(i), n), n) == Index(i)
    ensures ArrowDown(ArrowUp(Index(i), n), n) == Index(i)
    ensures ArrowUpAsWritten(ArrowDownAsWritten(Index(i), n), n) == Index(i)
    ensures ArrowDownAsWritten(ArrowUpAsWritten(Index(i), n), n) == Index(i)
  {
    if i + 1 < n {
      ModUnique(i + 1, n, 0, i + 1);
      ModUnique(i + n, n, 1, i);
    } else {
      ModUnique(i + 1, n, 1, 0);
      ModUnique(n - 1, n, 0, n - 1);
    }
    if i > 0 {
      ModUnique(i - 1 + n, n, 1, i - 1);
      ModUnique(i, n, 0, i);
    } else {
      ModUnique(n - 1, n, 0, n - 1);
      ModUnique(n, n, 1, 0);
    }
  }

  /** `k` presses of ArrowDown as the source handles them. */
  function ArrowDownTimes(sel: Sel, n: nat, k: nat): Sel {
    if k == 0 then sel else ArrowDownAsWritten(ArrowDownTimes(sel, n, k - 1), n)
  }

  /** `k` presses of ArrowDown move `k` rows on, wrapping around the list. */
  lemma {:induction false} ArrowDownTimesWraps(i: int, n: nat, k: nat)
    requires 0 <= i < n
    ensures ArrowDownTimes(Index(i), n, k) == Index((i + k) % n)
  {
    if k == 0 {
      ModUnique(i, n, 0, i);
    } else {
      ArrowDownTimesWraps(i, n, k - 1);
      DownStep(i, n, k);
    }
  }

  /** One more press moves one more row on. */
  lemma DownStep(i: int, n: nat, k: nat)
    requires 0 <= i < n && k > 0
    requires ArrowDownTimes(Index(i), n, k - 1) == Index((i + k - 1) % n)
    ensures ArrowDownTimes(Index(i), n, k) == Index((i + k) % n)
  {
    var j := (i + k - 1) % n;
    NextIndex(j, n);
    ModSucc(i + k - 1, n);
  }

  lemma ModSucc(a: nat, n: nat)
    requires n > 0
    ensures (a % n + 1) % n == (a + 1) % n
  {
    var q, r := a / n, a % n;
    if r + 1 < n {
      ModUnique(r + 1, n, 0, r + 1);
      ModUnique(a + 1, n, q, r + 1);
    } else {
      ModUnique(r + 1, n, 1, 0);
      ModUnique(a + 1, n, q + 1, 0);
    }
  }

  /** So `n` presses of ArrowDown come back to the starting row. */
  lemma FullCircle(i: int, n: nat)
    requires 0 <= i < n
    ensures ArrowDownTimes(Index(i), n, n) == Index(i)
  {
    ArrowDownTimesWraps(i, n, n);
    ModUnique(i + n, n, 1, i);
  }

  /** The file Enter opens: only a selection inside the list names one. */
  function EnterTarget(listed: seq<S.FileNode>, sel: Sel): (r: Option<S.FileNode>)
    ensures r.Some? <==> sel.Index? && 0 <= sel.i < |listed|
    ensures r.Some? ==> r.value == listed[sel.i]
  {
    if sel.Index? && 0 <= sel.i < |listed| then Some(listed[sel.i]) else None
  }

  datatype Palette = Palette(query: string, selected: Sel)

  const Fresh: Palette := Palette("", Index(0))

  /** The reset the component runs whenever the store reports the palette closed. */
  function Settle(store: S.State, p: Palette): (r: Palette)
    ensures !store.isCmdPaletteOpen ==> r == Fresh
    ensures store.isCmdPaletteOpen ==> r == p
  {
    if store.isCmdPaletteOpen then p else Fresh
  }

  datatype Key = ArrowDownKey | ArrowUpKey | EnterKey | EscapeKey | OtherKey

  datatype Event =
    | KeyDown(key: Key)
    | TypeQuery(text: string)
    | Hover(row: nat)
    | ClickRow(row: nat)
    | ClickBackdrop

  datatype Screen = Screen(store: S.State, palette: Palette)

  /** The rows currently listed. */
  function Listed(sc: Screen): seq<S.FileNode> {
    Filter(sc.store.files, sc.palette.query)
  }

  /** Which arrow handlers the palette runs: the shipped ones, or the corrected ones. */
  datatype Arrows = AsWritten | Corrected

  /** The selection after ArrowDown (`down`) or ArrowUp over `n` listed rows. */
  function Arrow(arrows: Arrows, down: bool, sel: Sel, n: nat): (r: Sel)
    ensures n > 0 && sel.Index? && sel.i >= 0 ==> r.Index? && 0 <= r.i < n
    ensures n == 0 ==> (arrows == AsWritten ==> r == NaN) && (arrows == Corrected ==> r == sel)
    ensures sel == NaN ==> r == NaN
    ensures arrows == AsWritten ==> r == (if down then ArrowDownAsWritten(sel, n) else ArrowUpAsWritten(sel, n))
    ensures arrows == Corrected ==> r == (if down then ArrowDown(sel, n) else ArrowUp(sel, n))
  {
    match arrows
    case AsWritten => if down then ArrowDownAsWritten(sel, n) else ArrowUpAsWritten(sel, n)
    case Corrected => if down then ArrowDown(sel, n) else ArrowUp(sel, n)
  }

  /**
    The window keydown handler. Keys do nothing while the palette is closed;
    Escape closes it; Enter opens the selected listed file (which closes the
    palette too); the arrows move the selection, and as written an arrow over
    an empty list makes it NaN.
  */
  function HandleKey(sc: Screen, key: Key, arrows: Arrows): (r: Screen)
    ensures !sc.store.isCmdPaletteOpen ==> r == sc
    ensures sc.store.isCmdPaletteOpen && key == EscapeKey ==>
      r.store == S.SetCmdPalette(sc.store, false) && r.palette == Fresh
    ensures sc.store.isCmdPaletteOpen && key == EnterKey ==>
      match EnterTarget(Listed(sc), sc.palette.selected)
      case None => r == sc
      case Some(f) => r.store == S.OpenFile(sc.store, f.id) && r.palette == Fresh
    ensures sc.store.isCmdPaletteOpen && key == OtherKey ==> r == sc
    ensures sc.store.isCmdPaletteOpen && (key == ArrowDownKey || key == ArrowUpKey) ==>
      && r.store == sc.store && r.palette.query == sc.palette.query
      && (|Listed(sc)| > 0 && sc.palette.selected.Index? && sc.palette.selected.i >= 0 ==>
            r.palette.selected.Index? && 0 <= r.palette.selected.i < |Listed(sc)|)
      && (|Listed(sc)| == 0 && arrows == AsWritten ==> r.palette.selected == NaN)
      && (|Listed(sc)| == 0 && arrows == Corrected ==> r == sc)
      && (sc.palette.selected == NaN ==> r.palette.selected == NaN)
    // `setSelectedIndex(prev => (prev ± 1 …) % n)`: only the selection moves, by the chosen arrow handler
    ensures sc.store.isCmdPaletteOpen && (key == ArrowDownKey || key == ArrowUpKey) ==>
      r == sc.(palette := sc.palette.(selected := Arrow(arrows, key == ArrowDownKey, sc.palette.selected, |Listed(sc)|)))
  {
    if !sc.store.isCmdPaletteOpen then sc
    else
      var n := |Listed(sc)|;
      match key
      case ArrowDownKey => sc.(palette := sc.palette.(selected := Arrow(arrows, true, sc.palette.selected, n)))
      case ArrowUpKey => sc.(palette := sc.palette.(selected := Arrow(arrows, false, sc.palette.selected, n)))
      case EnterKey =>
        (match EnterTarget(Listed(sc), sc.palette.selected)
         case None => sc
         case Some(f) =>
           var store := S.OpenFile(sc.store, f.id);
           assert !store.isCmdPaletteOpen by {
             assert f in sc.store.files;
             assert S.HasId(sc.store.files, f.id);
           }
           Screen(store, Settle(store, sc.palette)))
      case EscapeKey =>
        var store := S.SetCmdPalette(sc.store, false);
        Screen(store, Settle(store, sc.palette))
      case OtherKey => sc
  }

  /** Every way the visitor touches the open palette. */
  function Handle(sc: Screen, e: Event, arrows: Arrows): (r: Screen)
    ensures !sc.store.isCmdPaletteOpen ==> r == sc
    // key presses reach the window listener only while the palette is open
    ensures e.KeyDown? && sc.store.isCmdPaletteOpen ==> r == HandleKey(sc, e.key, arrows)
    ensures e.TypeQuery? && sc.store.isCmdPaletteOpen ==>
      r.palette == sc.palette.(query := e.text) && r.store == sc.store
    ensures e.Hover? && sc.store.isCmdPaletteOpen ==>
      r.store == sc.store
      && (e.row < |Listed(sc)| ==> r.palette == sc.palette.(selected := Index(e.row)))
    ensures e.ClickRow? && sc.store.isCmdPaletteOpen && e.row < |Listed(sc)| ==>
      r.store == S.OpenFile(sc.store, Listed(sc)[e.row].id) && r.palette == Fresh
    ensures e.ClickBackdrop? && sc.store.isCmdPaletteOpen ==>
      r.store == S.SetCmdPalette(sc.store, false) && r.palette == Fresh
  {
    if !sc.store.isCmdPaletteOpen then sc
    else
      match e
      case KeyDown(k) => HandleKey(sc, k, arrows)
      case TypeQuery(q) => sc.(palette := sc.palette.(query := q))
      case Hover(row) =>
        if row < |Listed(sc)| then sc.(palette := sc.palette.(selected := Index(row))) else sc
      case ClickRow(row) =>
        if row < |Listed(sc)| then
          var f := Listed(sc)[row];
          var store := S.OpenFile(sc.store, f.id);
          assert !store.isCmdPaletteOpen by {
            assert f in sc.store.files;
            assert S.HasId(sc.store.files, f.id);
          }
          Screen(store, Settle(store, sc.palette))
        else sc
      case ClickBackdrop =>
        var store := S.SetCmdPalette(sc.store, false);
        Screen(store, Settle(store, sc.palette))
  }

  /** Ctrl/Cmd+K, or `setCmdPalette` from elsewhere, followed by the close reset. */
  function TogglePalette(sc: Screen): (r: Screen)
    ensures r.store == S.ToggleCmdPalette(sc.store)
    ensures !r.store.isCmdPaletteOpen ==> r.palette == Fresh
  {
    var store := S.ToggleCmdPalette(sc.store);
    Screen(store, Settle(store, sc.palette))
  }

  /** A sequence of events, handled in order. */
  function Run(sc: Screen, events: seq<Event>, arrows: Arrows): (r: Screen)
    ensures |events| == 0 ==> r == sc
    ensures !sc.store.isCmdPaletteOpen ==> r == sc
    decreases |events|
  {
    if |events| == 0 then sc else Run(Handle(sc, events[0], arrows), events[1..], arrows)
  }

  /** Handling two batches of events in turn is handling them as one sequence. */
  lemma {:induction false} RunAppend(sc: Screen, first: seq<Event>, second: seq<Event>, arrows: Arrows)
    ensures Run(sc, first + second, arrows) == Run(Run(sc, first, arrows), second, arrows)
    decreases |first|
  {
    if |first| > 0 {
      assert (first + second)[0] == first[0];
      assert (first + second)[1..] == first[1..] + second;
      RunAppend(Handle(sc, first[0], arrows), first[1..], second, arrows);
    } else {
      assert first + second == second;
    }
  }

  /** What holds as written: a closed palette is fresh, and no selection is a negative index. */
  predicate Settled(sc: Screen) {
    && (!sc.store.isCmdPaletteOpen ==> sc.palette == Fresh)
    && (sc.palette.selected.Index? ==> sc.palette.selected.i >= 0)
  }

  /** What the corrected arrows add: the selection is always a number. */
  predicate Sound(sc: Screen) {
    Settled(sc) && sc.palette.selected.Index?
  }

  /** Every event keeps the palette settled, with either pair of arrows. */
  lemma HandleKeepsSettled(sc: Screen, e: Event, arrows: Arrows)
    requires Settled(sc)
    ensures Settled(Handle(sc, e, arrows))
  {
  }

  lemma {:induction false} RunKeepsSettled(sc: Screen, events: seq<Event>, arrows: Arrows)
    requires Settled(sc)
    ensures Settled(Run(sc, events, arrows))
    decreases |events|
  {
    if |events| > 0 {
      HandleKeepsSettled(sc, events[0], arrows);
      RunKeepsSettled(Handle(sc, events[0], arrows), events[1..], arrows);
    }
  }

  lemma HandlePreservesSound(sc: Screen, e: Event)
    requires Sound(sc)
    ensures Sound(Handle(sc, e, Corrected))
  {
  }

  /**
    With the corrected arrows, no sequence of events ever turns the selection
    into NaN (or a negative index).
  */
  lemma {:induction false} SelectionStaysNumeric(sc: Screen, events: seq<Event>)
    requires Sound(sc)
    ensures Sound(Run(sc, events, Corrected))
    ensures Run(sc, events, Corrected).palette.selected.Index?
    decreases |events|
  {
    if |events| > 0 {
      HandlePreservesSound(sc, events[0]);
      SelectionStaysNumeric(Handle(sc, events[0], Corrected), events[1..]);
    }
  }

  /**
    The event-level scenario: with a query that lists nothing, ArrowDown, then
    clearing the query, then Enter. As written the selection is NaN and Enter
    opens nothing although every file is listed again; corrected, Enter opens
    the first file.
  */
  lemma StrandedSelection(sc: Screen)
    requires sc.store.isCmdPaletteOpen && |sc.store.files| > 0
    requires Listed(sc) == [] && sc.palette.selected == Index(0)
    ensures var events := [KeyDown(ArrowDownKey), TypeQuery(""), KeyDown(EnterKey)];
            && Run(sc, events, AsWritten) == Screen(sc.store, Palette("", NaN))
            && Run(sc, events, Corrected).store == S.OpenFile(sc.store, sc.store.files[0].id)
  {
    var events := [KeyDown(ArrowDownKey), TypeQuery(""), KeyDown(EnterKey)];
    EmptyQueryListsAll(sc.store.files);
    var w1 := Handle(sc, events[0], AsWritten);
    var w2 := Handle(w1, events[1], AsWritten);
    assert w2 == Screen(sc.store, Palette("", NaN));
    assert Run(sc, events, AsWritten) == Run(w2, events[2..], AsWritten);
    var c1 := Handle(sc, events[0], Corrected);
    var c2 := Handle(c1, events[1], Corrected);
    assert c2 == Screen(sc.store, Palette("", Index(0)));
    assert Run(sc, events, Corrected) == Run(c2, events[2..], Corrected);
  }

  /** Closing the palette always leaves an empty query and the first row selected. */
  lemma CloseResets(sc: Screen, arrows: Arrows)
    requires sc.store.isCmdPaletteOpen
    ensures HandleKey(sc, EscapeKey, arrows).palette == Fresh
    ensures Handle(sc, ClickBackdrop, arrows).palette == Fresh
    ensures TogglePalette(sc).palette == Fresh
  {
  }
}

=== FILE: contact.dfy ===
/**
  The contact panel: a terminal-styled wizard that collects a name, a subject
  and a message, then composes a `mailto:` URI (RFC 6068) for the visitor's
  mail client. Delayed log lines are appended at once; the timestamp of each
  line is left out.
*/
module Contact {

  import opened Wrappers
  import opened Strings

  datatype FormStep = Idle | Name | Subject | Message | Confirm

  datatype Sender = System | User | Guest

  datatype LogEntry = LogEntry(sender: Sender, message: string)

  datatype FormData = FormData(name: string, subject: string, message: string)

  datatype ContactState = ContactState(
    input: string,
    step: FormStep,
    form: FormData,
    logs: seq<LogEntry>
  )

  /** The state after a command, and the URI handed to the mail client, if any. */
  datatype Reply = Reply(state: ContactState, mailto: Option<string>)

  const Address: string := "nyychttv21@gmail.com"
  const EmptyForm: FormData := FormData("", "", "")

  const Greeting: string := "Secure channel initialized."
  const Instructions: string := "To initiate transmission, type \"start\" or click the terminal."
  const AskName: string := "Identify yourself. Enter NAME:"
  const NotRecognized: string := "Command not recognized. Type \"start\" to begin transmission."
  const AskMessage: string := "Subject logged. Enter MESSAGE payload:"
  const AskConfirm: string :=
    "Packet compiled. Type \"send\" to transmit via default mail client, or \"cancel\" to abort."
  const Sent: string := "Opening SMTP port... Transmission successful."
  const Reset: string := "Channel reset. Ready for new input."
  const Aborted: string := "Transmission aborted. Channel reset."

  function AskSubject(name: string): string {
    "Identity confirmed [" + name + "]. Enter SUBJECT of inquiry:"
  }

  /** Position of a step on the way from IDLE to CONFIRM. */
  function Rank(step: FormStep): nat {
    match step
    case Idle => 0
    case Name => 1
    case Subject => 2
    case Message => 3
    case Confirm => 4
  }

  /** The panel as first rendered: IDLE, empty form, two SYSTEM lines. */
  function Init(): (st: ContactState)
    ensures st.step == Idle && st.form == EmptyForm && st.input == ""
    ensures |st.logs| == 2
    ensures forall i :: 0 <= i < |st.logs| ==> st.logs[i].sender == System
  {
    ContactState("", Idle, EmptyForm, [LogEntry(System, Greeting), LogEntry(System, Instructions)])
  }

  /** The header's status text. */
  function StatusLabel(step: FormStep): (text: string)
    ensures text == "IDLE" <==> step == Idle
    ensures text == "UPLINK ACTIVE" <==> step != Idle
  {
    if step == Idle then "IDLE" else "UPLINK ACTIVE"
  }

  /** The subject header field: a literal, unencoded `[PORTFOLIO] ` tag, then the encoded subject. */
  function SubjectField(encSubject: string): string {
    "[PORTFOLIO] " + encSubject
  }

  /** The body field: sender line, an empty line, then the message, with CRLF written `%0D%0A`. */
  function BodyField(encName: string, encMessage: string): string {
    "Sender: " + encName + "%0D%0A%0D%0A" + encMessage
  }

  datatype MailtoParts = MailtoParts(to: string, subject: string, body: string)

  /** A `mailto:<to>?subject=<s>&body=<b>` URI, section 2 of RFC 6068. */
  function Compose(p: MailtoParts): string {
    "mailto:" + p.to + "?subject=" + p.subject + "&body=" + p.body
  }

  /**
    The URI opened on "send". `enc` stands for encodeURIComponent, which is
    outside this model.
  */
  function MailtoLink(form: FormData, enc: string -> string): (link: string)
    ensures StartsWith(link, "mailto:" + Address + "?subject=[PORTFOLIO] ")
  {
    var head := "mailto:" + Address + "?subject=[PORTFOLIO] ";
    var link := Compose(MailtoParts(Address, SubjectField(enc(form.subject)),
                                    BodyField(enc(form.name), enc(form.message))));
    assert link == head + (enc(form.subject) + "&body=" + BodyField(enc(form.name), enc(form.message)));
    assert link[..|head|] == head;
    link
  }

  /** `s` without the leading `prefix`, if it has one. */
  function StripPrefix(s: string, prefix: string): (r: Option<string>)
    ensures r.Some? <==> StartsWith(s, prefix)
    ensures r.Some? ==> s == prefix + r.value
  {
    if StartsWith(s, prefix) then
      assert s == s[..|prefix|] + s[|prefix|..];
      Some(s[|prefix|..])
    else None
  }

  lemma StripJoined(prefix: string, rest: string)
    ensures StripPrefix(prefix + rest, prefix) == Some(rest)
  {
    assert (prefix + rest)[..|prefix|] == prefix;
    assert (prefix + rest)[|prefix|..] == rest;
  }

  /**
    Reads a `mailto:` URI back into its parts, splitting at the first `?` and
    then at the first `&`; anything else is refused.
  */
  function ParseMailto(link: string): (r: Option<MailtoParts>)
    ensures r.Some? ==> Compose(r.value) == link
  {
    match StripPrefix(link, "mailto:")
    case None => None
    case Some(rest) =>
      match SplitFirst(rest, '?')
      case None => None
      case Some(head) =>
        match SplitFirst(head.1, '&')
        case None => None
        case Some(query) =>
          match (StripPrefix(query.0, "subject="), StripPrefix(query.1, "body="))
          case (Some(subject), Some(body)) =>
            var p := MailtoParts(head.0, subject, body);
            ComposeSplit(p);
            Some(p)
          case _ => None
  }

  /** How a composed URI falls apart at its two separators. */
  lemma ComposeSplit(p: MailtoParts)
    ensures Compose(p) == "mailto:" + (p.to + ['?'] + (("subject=" + p.subject) + ['&'] + ("body=" + p.body)))
  {
  }

  /**
    Composing and parsing are inverse: any URI with a `?`-free address and an
    `&`-free subject parses back into exactly its parts.
  */
  lemma {:induction false} ParseCompose(p: MailtoParts)
    requires '?' !in p.to && '&' !in p.subject
    ensures ParseMailto(Compose(p)) == Some(p)
  {
    var query := ("subject=" + p.subject) + ['&'] + ("body=" + p.body);
    ComposeSplit(p);
    StripJoined("mailto:", p.to + ['?'] + query);
    SplitFirstJoin(p.to, '?', query);
    assert '&' !in "subject=" + p.subject;
    SplitFirstJoin("subject=" + p.subject, '&', "body=" + p.body);
    StripJoined("subject=", p.subject);
    StripJoined("body=", p.body);
  }

  /**
    So the URI sent on "send" carries the address, the tagged subject and the
    CRLF-separated body, provided the encoded subject has no `&` (which
    encodeURIComponent always escapes).
  */
  lemma MailtoRoundTrip(form: FormData, enc: string -> string)
    requires '&' !in enc(form.subject)
    ensures ParseMailto(MailtoLink(form, enc))
         == Some(MailtoParts(Address, SubjectField(enc(form.subject)),
                             BodyField(enc(form.name), enc(form.message))))
  {
    assert '&' !in SubjectField(enc(form.subject));
    ParseCompose(MailtoParts(Address, SubjectField(enc(form.subject)),
                             BodyField(enc(form.name), enc(form.message))));
  }

  /** "start" and "hello", in any letter case, open the wizard. */
  predicate IsGreeting(clean: string) {
    ToLower(clean) == "start" || ToLower(clean) == "hello"
  }

  predicate IsSend(clean: string) {
    ToLower(clean) == "send"
  }

  /** What one trimmed command does to the step and the form, and what the SYSTEM says back. */
  datatype Transition = Transition(step: FormStep, form: FormData, replies: seq<string>, mailto: Option<string>)

  function Advance(step: FormStep, form: FormData, clean: string, enc: string -> string): (t: Transition)
    ensures |t.replies| > 0
    // IDLE: only the two keywords start the wizard
    ensures step == Idle ==> t.form == form && (t.step == Name <==> IsGreeting(clean))
    ensures step == Idle ==> (t.step == Idle <==> !IsGreeting(clean))
    // NAME, SUBJECT, MESSAGE: store the text and move one step on
    ensures step in {Name, Subject, Message} ==> Rank(t.step) == Rank(step) + 1
    ensures step == Name ==> t.form == form.(name := clean)
    ensures step == Subject ==> t.form == form.(subject := clean)
    ensures step == Message ==> t.form == form.(message := clean)
    // CONFIRM: back to IDLE either way; only "send" mails and clears the form
    ensures step == Confirm ==> t.step == Idle
    ensures t.mailto.Some? <==> step == Confirm && IsSend(clean)
    ensures t.mailto.Some? ==> t.mailto.value == MailtoLink(form, enc) && t.form == EmptyForm
    ensures step == Confirm && !IsSend(clean) ==> t.form == form
    // what the SYSTEM says back on each branch
    ensures step == Idle ==> t.replies == [if IsGreeting(clean) then AskName else NotRecognized]
    ensures step == Name ==> t.replies == ["Identity confirmed [" + clean + "]. Enter SUBJECT of inquiry:"]
    ensures step == Subject ==> t.replies == [AskMessage]
    ensures step == Message ==> t.replies == [AskConfirm]
    ensures step == Confirm ==> t.replies == (if IsSend(clean) then [Sent, Reset] else [Aborted])
  {
    match step
    case Idle =>
      if IsGreeting(clean) then Transition(Name, form, [AskName], None)
      else Transition(Idle, form, [NotRecognized], None)
    case Name => Transition(Subject, form.(name := clean), [AskSubject(clean)], None)
    case Subject => Transition(Message, form.(subject := clean), [AskMessage], None)
    case Message => Transition(Confirm, form.(message := clean), [AskConfirm], None)
    case Confirm =>
      if IsSend(clean) then Transition(Idle, EmptyForm, [Sent, Reset], Some(MailtoLink(form, enc)))
      else Transition(Idle, form, [Aborted], None)
  }

  function SystemLines(messages: seq<string>): (lines: seq<LogEntry>)
    ensures |lines| == |messages|
    ensures forall i :: 0 <= i < |lines| ==> lines[i] == LogEntry(System, messages[i])
  {
    seq(|messages|, i requires 0 <= i < |messages| => LogEntry(System, messages[i]))
  }

  /**
    `processCommand`: the trimmed command is logged as GUEST before anything
    else, then the step logic runs. The SYSTEM replies the source logs after
    a delay are appended here at once.
  */
  function ProcessCommand(st: ContactState, cmd: string, enc: string -> string): (r: Reply)
    ensures |r.state.logs| > |st.logs| + 1
    ensures r.state.logs[..|st.logs|] == st.logs
    ensures r.state.logs[|st.logs|] == LogEntry(Guest, Trim(cmd))
    ensures r.state.logs
         == st.logs + [LogEntry(Guest, Trim(cmd))] + SystemLines(Advance(st.step, st.form, Trim(cmd), enc).replies)
    ensures forall i :: |st.logs| < i < |r.state.logs| ==> r.state.logs[i].sender == System
    ensures r.state.input == st.input
    ensures r.state.step == Advance(st.step, st.form, Trim(cmd), enc).step
    ensures r.state.form == Advance(st.step, st.form, Trim(cmd), enc).form
    ensures r.mailto == Advance(st.step, st.form, Trim(cmd), enc).mailto
  {
    var clean := Trim(cmd);
    var t := Advance(st.step, st.form, clean, enc);
    var tail := SystemLines(t.replies);
    var logs := st.logs + [LogEntry(Guest, clean)] + tail;
    AppendAround(st.logs, LogEntry(Guest, clean), tail);
    Reply(st.(step := t.step, form := t.form, logs := logs), t.mailto)
  }

  /** Where the parts of `a + [x] + b` sit. */
  lemma AppendAround<T>(a: seq<T>, x: T, b: seq<T>)
    ensures |a + [x] + b| == |a| + 1 + |b|
    ensures (a + [x] + b)[..|a|] == a
    ensures (a + [x] + b)[|a|] == x
    ensures forall i :: |a| < i < |a| + 1 + |b| ==> (a + [x] + b)[i] == b[i - |a| - 1]
  {
  }

  /** Typing into the input box. */
  function SetInput(st: ContactState, text: string): (r: ContactState)
    ensures r.input == text && r.(input := st.input) == st
  {
    st.(input := text)
  }

  /**
    `handleSubmit`: blank input is ignored outright; anything else is
    processed and the input box is emptied.
  */
  function Submit(st: ContactState, enc: string -> string): (r: Reply)
    ensures AllSpace(st.input) ==> r == Reply(st, None)
    ensures !AllSpace(st.input) ==>
      && r.state.input == ""
      && |r.state.logs| > |st.logs| + 1
      && r.state.logs[|st.logs|] == LogEntry(Guest, Trim(st.input))
      && (forall i :: |st.logs| < i < |r.state.logs| ==> r.state.logs[i].sender == System)
    // a non-blank line drives the wizard exactly as Advance prescribes
    ensures !AllSpace(st.input) ==>
      && r.state.step == Advance(st.step, st.form, Trim(st.input), enc).step
      && r.state.form == Advance(st.step, st.form, Trim(st.input), enc).form
      && r.mailto == Advance(st.step, st.form, Trim(st.input), enc).mailto
      && r.state.logs
         == st.logs + [LogEntry(Guest, Trim(st.input))] + SystemLines(Advance(st.step, st.form, Trim(st.input), enc).replies)
    ensures r.state.logs[..|st.logs|] == st.logs
  {
    if Trim(st.input) == "" then Reply(st, None)
    else
      var r := ProcessCommand(st, st.input, enc);
      Reply(r.state.(input := ""), r.mailto)
  }

  /**
    A visitor's session: each string is typed into the box and submitted.
    Afterwards the box holds the last line if it was blank, and is empty otherwise.
  */
  function Session(st: ContactState, lines: seq<string>, enc: string -> string): (r: ContactState)
    ensures |lines| > 0 ==>
      r.input == (if AllSpace(lines[|lines| - 1]) then lines[|lines| - 1] else "")
    decreases |lines|
  {
    if |lines| == 0 then st
    else
      assert |lines| > 1 ==> lines[1..][|lines[1..]| - 1] == lines[|lines| - 1];
      Session(Submit(SetInput(st, lines[0]), enc).state, lines[1..], enc)
  }

  /** No path removes log lines: a session only ever appends to the log. */
  lemma {:induction false} SessionLogGrows(st: ContactState, lines: seq<string>, enc: string -> string)
    ensures |Session(st, lines, enc).logs| >= |st.logs|
    ensures Session(st, lines, enc).logs[..|st.logs|] == st.logs
    decreases |lines|
  {
    if |lines| > 0 {
      var next := Submit(SetInput(st, lines[0]), enc).state;
      SessionLogGrows(next, lines[1..], enc);
      assert Session(st, lines, enc) == Session(next, lines[1..], enc);
      PrefixOfPrefix(Session(st, lines, enc).logs, next.logs, st.logs);
    }
  }

  lemma PrefixOfPrefix<T>(a: seq<T>, b: seq<T>, c: seq<T>)
    requires |b| <= |a| && a[..|b|] == b
    requires |c| <= |b| && b[..|c|] == c
    ensures a[..|c|] == c
  {
    assert a[..|b|][..|c|] == a[..|c|];
  }

  /** So the two opening SYSTEM lines head the log for ever. */
  lemma GreetingStays(lines: seq<string>, enc: string -> string)
    ensures |Session(Init(), lines, enc).logs| >= 2
    ensures Session(Init(), lines, enc).logs[..2] == Init().logs
  {
    SessionLogGrows(Init(), lines, enc);
  }

  /**
    The full happy path: "start", a name, a subject, a message, "send" opens
    the URI built from the three trimmed answers and leaves a fresh IDLE form.
  */
  lemma WizardSendsMail(st: ContactState, go: string, name: string, subject: string,
                        message: string, send: string, enc: string -> string)
    requires st.step == Idle
    requires ToLower(Trim(go)) == "start"
    requires ToLower(Trim(send)) == "send"
    ensures var r1 := ProcessCommand(st, go, enc).state;
            var r2 := ProcessCommand(r1, name, enc).state;
            var r3 := ProcessCommand(r2, subject, enc).state;
            var r4 := ProcessCommand(r3, message, enc).state;
            var r5 := ProcessCommand(r4, send, enc);
            && r4.step == Confirm
            && r5.mailto == Some(MailtoLink(FormData(Trim(name), Trim(subject), Trim(message)), enc))
            && r5.state.step == Idle && r5.state.form == EmptyForm
  {
  }

  /** Any reply other than "send" at CONFIRM aborts but keeps the answers for next time. */
  lemma CancelKeepsAnswers(st: ContactState, reply: string, enc: string -> string)
    requires st.step == Confirm
    requires ToLower(Trim(reply)) != "send"
    ensures ProcessCommand(st, reply, enc).state.step == Idle
    ensures ProcessCommand(st, reply, enc).state.form == st.form
    ensures ProcessCommand(st, reply, enc).mailto == None
  {
  }
}

=== FILE: flags.dfy ===
/**
  Per-key open/closed flags kept in a record, as the sidebar folders and the
  skills sections keep them. A key never set reads as `undefined`, which is
  falsy, so it counts as closed.
*/
module Flags {

  type FlagMap = map<string, bool>

  predicate IsSet(flags: FlagMap, key: string) {
    key in flags && flags[key]
  }

  /** `{ ...prev, [key]: !prev[key] }`: flip one key, keep every other entry. */
  function Flip(flags: FlagMap, key: string): (r: FlagMap)
    ensures IsSet(r, key) == !IsSet(flags, key)
    ensures key in r && r.Keys == flags.Keys + {key}
    ensures forall k :: k != key ==> (k in r <==> k in flags) && (k in flags ==> r[k] == flags[k])
  {
    flags[key := !IsSet(flags, key)]
  }

  /**
    Flipping twice shows every key as before; the record itself comes back
    unchanged when the key was already present (an absent key ends up stored
    as `false`).
  */
  lemma FlipTwice(flags: FlagMap, key: string)
    ensures forall k :: IsSet(Flip(Flip(flags, key), key), k) == IsSet(flags, k)
    ensures key in flags ==> Flip(Flip(flags, key), key) == flags
  {
  }
}

=== FILE: projects.dfy ===
/**
  The projects panel: a fake process table with one expandable row at a
  time, a count of running processes, link labels and the PID shown in
  hexadecimal.
*/
module Projects {

  import opened Wrappers
  import opened Strings

  datatype Status = Running | Sleeping | Killed | Zombie

  datatype Project = Project(
    pid: nat,
    user: string,
    cmd: string,
    memory: string,
    status: Status,
    flags: seq<string>,
    ports: seq<string>
  )

  /** The process table, in display order. */
  function ProjectList(): seq<Project> {
    [Nitch(), AuroraBoard(), ProjectAurora(), AuroraMusic()]
  }

  function Nitch(): Project {
    Project(2026, "root", "./projects/nitch.codes",
            "128MB", Running, ["nextjs", "typescript", "tailwind", "zustand"], ["https://www.nitch.codes/"])
  }

  function AuroraBoard(): Project {
    Project(2025, "root", "./projects/aurora-board",
            "64MB", Sleeping, ["kanban", "task-tracking", "project-aurora"], ["https://aurora-board.vercel.app/"])
  }

  function ProjectAurora(): Project {
    Project(2026, "guest", "./projects/project-aurora",
            "512MB", Sleeping, ["threejs", "webgl", "glsl"], ["https://project-aurora-beta.vercel.app/"])
  }

  function AuroraMusic(): Project {
    Project(2025, "root", "./tools/aurora-music",
            "16MB", Zombie, ["python", "tkinter"], ["https://github.com/GitRavioli/aurora_music"])
  }

  function StatusName(s: Status): string {
    match s
    case Running => "running"
    case Sleeping => "sleeping"
    case Killed => "killed"
    case Zombie => "zombie"
  }

  datatype Icon = PulseIcon | SleepDot | AlertIcon | DimDot

  /** `StatusIcon`: three named statuses, and a default for any other text. */
  function StatusIcon(status: string): (icon: Icon)
    ensures icon == PulseIcon <==> status == "running"
    ensures icon == SleepDot <==> status == "sleeping"
    ensures icon == AlertIcon <==> status == "killed"
    ensures icon == DimDot <==> status !in {"running", "sleeping", "killed"}
  {
    if status == "running" then PulseIcon
    else if status == "sleeping" then SleepDot
    else if status == "killed" then AlertIcon
    else DimDot
  }

  /** A zombie has no icon of its own: it falls to the default. */
  lemma ZombieIsDefault()
    ensures StatusIcon(StatusName(Zombie)) == DimDot
    ensures forall s :: s != Zombie ==> StatusIcon(StatusName(s)) != DimDot
  {
  }

  /** `toggleProject`: a click on the expanded row folds it; any other click expands only that row. */
  function ToggleProject(selected: Option<string>, cmd: string): (r: Option<string>)
    ensures selected == Some(cmd) ==> r == None
    ensures selected != Some(cmd) ==> r == Some(cmd)
  {
    if selected == Some(cmd) then None else Some(cmd)
  }

  predicate IsExpanded(selected: Option<string>, p: Project) {
    selected == Some(p.cmd)
  }

  lemma ToggleTwice(selected: Option<string>, cmd: string)
    requires selected != Some(cmd)
    ensures ToggleProject(ToggleProject(selected, cmd), cmd) == None
  {
  }

  predicate DistinctCmds(ps: seq<Project>) {
    forall i, j :: 0 <= i < j < |ps| ==> ps[i].cmd != ps[j].cmd
  }

  function ExpandedCount(selected: Option<string>, ps: seq<Project>): nat {
    if |ps| == 0 then 0
    else (if IsExpanded(selected, ps[0]) then 1 else 0) + ExpandedCount(selected, ps[1..])
  }

  /** Rows are keyed by command, so with distinct commands at most one row is expanded. */
  lemma {:induction false} AtMostOneExpanded(selected: Option<string>, ps: seq<Project>)
    requires DistinctCmds(ps)
    ensures ExpandedCount(selected, ps) <= 1
    ensures selected.None? ==> ExpandedCount(selected, ps) == 0
  {
    if |ps| > 0 {
      AtMostOneExpanded(selected, ps[1..]);
      if IsExpanded(selected, ps[0]) {
        NoneExpanded(selected, ps[1..]);
      }
    }
  }

  lemma {:induction false} NoneExpanded(selected: Option<string>, ps: seq<Project>)
    requires forall i :: 0 <= i < |ps| ==> !IsExpanded(selected, ps[i])
    ensures ExpandedCount(selected, ps) == 0
  {
    if |ps| > 0 {
      NoneExpanded(selected, ps[1..]);
    }
  }

  /** The shipped rows have distinct commands although their PIDs repeat. */
  lemma ShippedKeys()
    ensures DistinctCmds(ProjectList())
    ensures ProjectList()[0].pid == ProjectList()[2].pid
    ensures ProjectList()[1].pid == ProjectList()[3].pid
  {
    var a, b, c, d := Nitch().cmd, AuroraBoard().cmd, ProjectAurora().cmd, AuroraMusic().cmd;
    assert a[11] == 'n' && b[11] == 'a' && c[11] == 'p';
    assert d[2] == 't' && a[2] == 'p' && b[2] == 'p' && c[2] == 'p';
  }

  /** The RUNNING figure: the processes whose status is `running`. */
  function RunningCount(ps: seq<Project>): (n: nat)
    ensures n <= |ps|
    ensures n == 0 <==> forall i :: 0 <= i < |ps| ==> ps[i].status != Running
    ensures n == |ps| <==> forall i :: 0 <= i < |ps| ==> ps[i].status == Running
  {
    if |ps| == 0 then 0
    else
      var rest := RunningCount(ps[1..]);
      assert forall i :: 1 <= i < |ps| ==> ps[i] == ps[1..][i - 1];
      (if ps[0].status == Running then 1 else 0) + rest
  }

  lemma {:induction false} RunningCountAppend(a: seq<Project>, b: seq<Project>)
    ensures RunningCount(a + b) == RunningCount(a) + RunningCount(b)
  {
    if |a| > 0 {
      assert (a + b)[1..] == a[1..] + b;
      RunningCountAppend(a[1..], b);
    } else {
      assert a + b == b;
    }
  }

  /** The header reads TASKS: 4 total, RUNNING: 1. */
  lemma ShippedCounts()
    ensures |ProjectList()| == 4
    ensures RunningCount(ProjectList()) == 1
  {
    var ps := ProjectList();
    RunningCountAppend([ps[0], ps[1]], [ps[2], ps[3]]);
    RunningCountAppend([ps[0]], [ps[1]]);
    RunningCountAppend([ps[2]], [ps[3]]);
    assert [ps[0], ps[1]] + [ps[2], ps[3]] == ps;
    assert [ps[0]] + [ps[1]] == [ps[0], ps[1]];
    assert [ps[2]] + [ps[3]] == [ps[2], ps[3]];
  }

  datatype LinkLabel = Source | View

  /** A port link reads SOURCE (with the GitHub icon) when its URL mentions github, VIEW otherwise. */
  function LabelFor(url: string): (tag: LinkLabel)
    ensures tag == Source <==> exists i :: OccursAt(url, "github", i)
  {
    ContainsIff(url, "github");
    if Contains(url, "github") then Source else View
  }

  /** A needle whose first character is absent from the text occurs nowhere in it. */
  lemma AbsentLead(hay: string, needle: string)
    requires |needle| > 0 && needle[0] !in hay
    ensures forall i :: !OccursAt(hay, needle, i)
  {
    forall i ensures !OccursAt(hay, needle, i) {
      if 0 <= i && i + |needle| <= |hay| {
        assert hay[i..i + |needle|][0] == hay[i];
      }
    }
  }

  /** Only the last project links to GitHub: its port reads SOURCE ... */
  lemma ShippedSourceLink()
    ensures LabelFor(AuroraMusic().ports[0]) == Source
  {
    var music := AuroraMusic().ports[0];
    assert music[8] == 'g' && music[9] == 'i' && music[10] == 't';
    assert music[11] == 'h' && music[12] == 'u' && music[13] == 'b';
    assert music[8..14] == "github";
    assert OccursAt(music, "github", 8);
  }

  /** ... and the other three read VIEW. */
  lemma ShippedViewLinks()
    ensures LabelFor(Nitch().ports[0]) == View
    ensures LabelFor(AuroraBoard().ports[0]) == View
    ensures LabelFor(ProjectAurora().ports[0]) == View
  {
    var a, b, c := Nitch().ports[0], AuroraBoard().ports[0], ProjectAurora().ports[0];
    assert 'g' !in a by { NoG("https://www.nitch.codes/"); }
    assert 'g' !in b by { NoG("https://aurora-board.vercel.app/"); }
    assert 'g' !in c by { NoG("https://project-aurora-beta.vercel.app/"); }
    NoGitHub(a);
    NoGitHub(b);
    NoGitHub(c);
  }

  lemma NoG(url: string)
    requires forall i :: 0 <= i < |url| ==> url[i] != 'g'
    ensures 'g' !in url
  {
  }

  lemma NoGitHub(url: string)
    requires 'g' !in url
    ensures LabelFor(url) == View
  {
    AbsentLead(url, "github");
  }

  /** The lower-case digit JavaScript prints for `d`. */
  function HexDigit(d: nat): char
    requires d < 16
  {
    if d < 10 then ('0' as int + d) as char else ('a' as int + d - 10) as char
  }

  predicate IsHexDigit(c: char) {
    '0' <= c <= '9' || 'a' <= c <= 'f'
  }

  function DigitValue(c: char): (d: nat)
    requires IsHexDigit(c)
    ensures d < 16 && HexDigit(d) == c
  {
    if '0' <= c <= '9' then c as int - '0' as int else c as int - 'a' as int + 10
  }

  /** `n.toString(16)`: lower-case digits, no leading zero. */
  function ToHex(n: nat): (s: string)
    ensures |s| > 0
    ensures forall i :: 0 <= i < |s| ==> IsHexDigit(s[i])
    ensures s[0] == '0' ==> n == 0
    decreases n
  {
    if n < 16 then [HexDigit(n)] else ToHex(n / 16) + [HexDigit(n % 16)]
  }

  /** Reading hexadecimal digits back into a number. */
  function FromHex(s: string): nat
    requires forall i :: 0 <= i < |s| ==> IsHexDigit(s[i])
  {
    if |s| == 0 then 0 else FromHex(s[..|s| - 1]) * 16 + DigitValue(s[|s| - 1])
  }

  lemma DigitRoundTrip(d: nat)
    requires d < 16
    ensures IsHexDigit(HexDigit(d)) && DigitValue(HexDigit(d)) == d
  {
  }

  /** The PID shown is exactly the PID: printing in hexadecimal loses nothing. */
  lemma {:induction false} HexRoundTrip(n: nat)
    ensures FromHex(ToHex(n)) == n
    decreases n
  {
    var s := ToHex(n);
    DigitRoundTrip(n % 16);
    if n >= 16 {
      HexRoundTrip(n / 16);
      assert s[..|s| - 1] == ToHex(n / 16);
    }
  }

  /** The expanded row's THREAD_ID: `0x` and digits that read back as the PID. */
  function ThreadId(p: Project): (id: string)
    ensures |id| > 2 && id[..2] == "0x"
    ensures forall i :: 2 <= i < |id| ==> IsHexDigit(id[i])
    ensures FromHex(id[2..]) == p.pid
  {
    var digits := ToHex(p.pid);
    HexRoundTrip(p.pid);
    assert ("0x" + digits)[2..] == digits;
    "0x" + digits
  }

  /** The two PIDs of the table, as the expanded row shows them. */
  lemma ShippedThreadIds()
    ensures ToHex(2026) == "7ea"
    ensures ToHex(2025) == "7e9"
  {
    assert ToHex(7) == "7";
    assert ToHex(126) == "7e";
  }
}

=== FILE: sidebar.dfy ===
/**
  The file-explorer sidebar: three folders, each listing some of the store's
  files. A click on a file opens it, or closes it when it is already the
  active one; a click on a folder folds or unfolds it.
*/
module Sidebar {

  import S = SystemStore
  import opened Flags

  datatype FileEntry = FileEntry(id: string, caption: string, desc: string)

  datatype FileGroup = FileGroup(key: string, groupName: string, files: seq<FileEntry>)

  function FileGroups(): seq<FileGroup> {
    [ FileGroup("system", "system",
                [FileEntry("1", "README.md", "About"), FileEntry("3", "config.json", "Stack")]),
      FileGroup("user_space", "user_space", [FileEntry("2", "projects.exe", "Work")]),
      FileGroup("network", "network", [FileEntry("4", "connect.sh", "Contact")]) ]
  }

  function InitFolders(): (m: FlagMap)
    ensures forall g :: g in FileGroups() ==> IsSet(m, g.key)
    ensures m.Keys == {"system", "user_space", "network"}
  {
    map["system" := true, "user_space" := true, "network" := true]
  }

  /** `toggleFolder`: fold or unfold one folder, leaving the others as they are. */
  function ToggleFolder(folders: FlagMap, key: string): (r: FlagMap)
    ensures IsSet(r, key) == !IsSet(folders, key)
    ensures forall k :: k != key ==> IsSet(r, k) == IsSet(folders, k)
  {
    Flip(folders, key)
  }

  /** Toggling a folder twice shows every folder as before. */
  lemma ToggleFolderTwice(folders: FlagMap, key: string)
    ensures forall k :: IsSet(ToggleFolder(ToggleFolder(folders, key), key), k) == IsSet(folders, k)
    ensures key in folders ==> ToggleFolder(ToggleFolder(folders, key), key) == folders
  {
    FlipTwice(folders, key);
  }

  /** `handleFileClick`: a click on the active file closes it, any other click opens. */
  function HandleFileClick(store: S.State, id: string): (r: S.State)
    ensures store.activeFile.Some? && store.activeFile.value.id == id ==> r == S.CloseFile(store)
    ensures !(store.activeFile.Some? && store.activeFile.value.id == id) ==> r == S.OpenFile(store, id)
  {
    if store.activeFile.Some? && store.activeFile.value.id == id then S.CloseFile(store)
    else S.OpenFile(store, id)
  }

  /** A row is highlighted when its id is the active file's id. */
  predicate IsActive(store: S.State, id: string) {
    store.activeFile.Some? && store.activeFile.value.id == id
  }

  /** A click on a file the store knows and that is not active makes it active. */
  lemma ClickOpens(store: S.State, id: string)
    requires S.HasId(store.files, id) && !IsActive(store, id)
    ensures IsActive(HandleFileClick(store, id), id)
  {
  }

  /** From a file not active, two clicks on it leave no file active. */
  lemma TwoClicksClose(store: S.State, id: string)
    requires S.HasId(store.files, id) && !IsActive(store, id)
    ensures HandleFileClick(HandleFileClick(store, id), id).activeFile.None?
  {
  }

  /** A click on an id the store does not know changes nothing. */
  lemma UnknownClickIgnored(store: S.State, id: string)
    requires S.Valid(store) && !S.HasId(store.files, id)
    ensures HandleFileClick(store, id) == store
  {
    if store.activeFile.Some? {
      var f := store.activeFile.value;
      var i :| 0 <= i < |store.files| && store.files[i] == f;
      assert store.files[i].id != id;
    }
  }

  /** How many files the folders hold together. */
  function Size(groups: seq<FileGroup>): nat {
    if |groups| == 0 then 0 else |groups[0].files| + Size(groups[1..])
  }

  /** The folders before folder `k` hold the first folder's files and those before `k` in the rest. */
  lemma SizePrefix(groups: seq<FileGroup>, k: nat)
    requires 1 <= k <= |groups|
    ensures Size(groups[..k]) == |groups[0].files| + Size(groups[1..][..k - 1])
  {
    assert groups[..k][1..] == groups[1..][..k - 1];
  }

  /** The rows of all folders, top to bottom. */
  function Rows(groups: seq<FileGroup>): (rows: seq<FileEntry>)
    ensures |rows| == Size(groups)
    ensures forall e :: e in rows <==> exists g :: g in groups && e in g.files
  {
    if |groups| == 0 then []
    else
      var rest := Rows(groups[1..]);
      assert forall g :: g in groups <==> g == groups[0] || g in groups[1..];
      groups[0].files + rest
  }

  /** Folder `k`'s files appear in their own order, after the files of every folder above it. */
  lemma {:induction false} RowsAt(groups: seq<FileGroup>, k: nat, j: nat)
    requires k < |groups| && j < |groups[k].files|
    ensures Size(groups[..k]) + j < |Rows(groups)|
    ensures Rows(groups)[Size(groups[..k]) + j] == groups[k].files[j]
    decreases k
  {
    if k == 0 {
      assert groups[..0] == [];
    } else {
      SizePrefix(groups, k);
      assert groups[k] == groups[1..][k - 1];
      RowsAt(groups[1..], k - 1, j);
    }
  }

  predicate DistinctRowIds(rows: seq<FileEntry>) {
    forall i, j :: 0 <= i < j < |rows| ==> rows[i].id != rows[j].id
  }

  function ActiveCount(store: S.State, rows: seq<FileEntry>): nat {
    if |rows| == 0 then 0
    else (if IsActive(store, rows[0].id) then 1 else 0) + ActiveCount(store, rows[1..])
  }

  /** With distinct ids, at most one row is highlighted, and one is exactly when the active id is listed. */
  lemma {:induction false} AtMostOneActive(store: S.State, rows: seq<FileEntry>)
    requires DistinctRowIds(rows)
    ensures ActiveCount(store, rows) <= 1
    ensures ActiveCount(store, rows) == 1 <==> exists i :: 0 <= i < |rows| && IsActive(store, rows[i].id)
  {
    if |rows| > 0 {
      AtMostOneActive(store, rows[1..]);
      if IsActive(store, rows[0].id) {
        forall i | 0 <= i < |rows[1..]| ensures !IsActive(store, rows[1..][i].id) {
          assert rows[1..][i] == rows[i + 1];
        }
        NoneActive(store, rows[1..]);
      } else {
        forall i | 0 <= i < |rows| && IsActive(store, rows[i].id) ensures 0 <= i - 1 < |rows[1..]| && IsActive(store, rows[1..][i - 1].id) {
          assert rows[1..][i - 1] == rows[i];
        }
        if ActiveCount(store, rows[1..]) == 1 {
          var i :| 0 <= i < |rows[1..]| && IsActive(store, rows[1..][i].id);
          assert rows[i + 1] == rows[1..][i];
        }
      }
    }
  }

  lemma {:induction false} NoneActive(store: S.State, rows: seq<FileEntry>)
    requires forall i :: 0 <= i < |rows| ==> !IsActive(store, rows[i].id)
    ensures ActiveCount(store, rows) == 0
  {
    if |rows| > 0 {
      NoneActive(store, rows[1..]);
    }
  }

  function ShippedRowList(): seq<FileEntry> {
    [ FileEntry("1", "README.md", "About"), FileEntry("3", "config.json", "Stack"),
      FileEntry("2", "projects.exe", "Work"), FileEntry("4", "connect.sh", "Contact") ]
  }

  lemma ShippedRows()
    ensures Rows(FileGroups()) == ShippedRowList()
  {
    var g := FileGroups();
    assert g[1..][1..] == g[2..];
    assert Rows(g[2..]) == g[2].files;
    assert Rows(g[1..]) == g[1].files + g[2].files;
  }

  /** No file id appears in two rows of the shipped folders. */
  lemma ShippedIdsDistinct()
    ensures DistinctRowIds(Rows(FileGroups()))
  {
    ShippedRows();
    var rows := ShippedRowList();
    assert rows[0].id == "1" && rows[1].id == "3" && rows[2].id == "2" && rows[3].id == "4";
  }

  /**
    The folders list each of the store's four files exactly once, under the
    same name: row `i` is the store's file `[0, 2, 1, 3][i]`.
  */
  lemma GroupsMatchStore()
    ensures |Rows(FileGroups())| == |S.Files()|
    ensures forall i :: 0 <= i < 4 ==>
      && Rows(FileGroups())[i].id == S.Files()[[0, 2, 1, 3][i]].id
      && Rows(FileGroups())[i].caption == S.Files()[[0, 2, 1, 3][i]].name
  {
    ShippedRows();
  }

  /** In the shipped sidebar, at most one file row is ever highlighted. */
  lemma AtMostOneHighlighted(store: S.State)
    ensures ActiveCount(store, Rows(FileGroups())) <= 1
  {
    ShippedIdsDistinct();
    AtMostOneActive(store, Rows(FileGroups()));
  }
}

=== FILE: skills.dfy ===
/**
  The skills panel: the toolchain shown as a foldable JSON object, one line
  per category header, tool and closing brace. The model renders the lines
  as text and proves where the commas fall.
*/
module Skills {

  import opened Flags

  datatype Level = Beginner | Intermediate | Advanced | Expert

  datatype Tool = Tool(name: string, level: Level)

  datatype Category = Category(name: string, tools: seq<Tool>)

  /** The toolchain, in the object's key order. */
  function Toolchain(): seq<Category> {
    [ Category("frontend", [Tool("javascript", Intermediate), Tool("vue", Intermediate),
                            Tool("quasar", Intermediate), Tool("html", Advanced),
                            Tool("css", Advanced), Tool("sass", Intermediate)]),
      Category("state", [Tool("pinia", Advanced), Tool("vuex", Intermediate)]),
      Category("backend", [Tool("node", Intermediate), Tool("express", Intermediate),
                           Tool("rest_apis", Intermediate), Tool("api_integration", Intermediate)]),
      Category("applications", [Tool("kotlin", Intermediate), Tool("android", Intermediate),
                                Tool("python", Intermediate), Tool("tkinter", Intermediate),
                                Tool("lua", Beginner), Tool("love2d", Beginner)]),
      Category("storage", [Tool("indexeddb", Intermediate), Tool("dexie", Intermediate),
                           Tool("localstorage", Advanced)]),
      Category("platforms", [Tool("chrome_extensions", Intermediate), Tool("pwa", Intermediate)]),
      Category("tooling", [Tool("git", Intermediate), Tool("docker", Intermediate)]) ]
  }

  function LevelName(level: Level): string {
    match level
    case Beginner => "beginner"
    case Intermediate => "intermediate"
    case Advanced => "advanced"
    case Expert => "expert"
  }

  /** `getLevelColor`: the CSS classes for a level's value; only `expert` adds a second class (bold). */
  function LevelColor(level: Level): (cls: string)
    ensures |cls| > 0
    ensures ' ' in cls <==> level == Expert
  {
    assert ' ' !in "text-concrete" && ' ' !in "text-blue-400" && ' ' !in "text-alert";
    assert "text-purple-400 font-bold"[15] == ' ';
    match level
    case Beginner => "text-concrete"
    case Intermediate => "text-blue-400"
    case Advanced => "text-alert"
    case Expert => "text-purple-400 font-bold"
  }

  /** Every level has a colour, and no two levels share one. */
  lemma LevelColorsDistinct(a: Level, b: Level)
    ensures a != b ==> LevelColor(a) != LevelColor(b)
    ensures |LevelColor(a)| > 0
  {
  }

  /** The opening state: every category unfolded. */
  function InitSections(cats: seq<Category>): (open: FlagMap)
    ensures forall c :: c in cats ==> IsSet(open, c.name)
    ensures forall k :: k in open ==> exists c :: c in cats && c.name == k
  {
    if |cats| == 0 then map[]
    else
      var rest := InitSections(cats[1..]);
      assert forall c :: c in cats[1..] ==> c in cats;
      rest[cats[0].name := true]
  }

  /**
    `toggleSection`: fold or unfold one category; every other category
    renders exactly as before.
  */
  function ToggleSection(open: FlagMap, key: string): (r: FlagMap)
    ensures IsSet(r, key) == !IsSet(open, key)
    ensures forall c: Category, isLast: bool :: c.name != key ==>
      RenderCategory(c, IsSet(r, c.name), isLast) == RenderCategory(c, IsSet(open, c.name), isLast)
  {
    Flip(open, key)
  }

  /** Toggling a category twice shows every category as before. */
  lemma ToggleSectionTwice(open: FlagMap, key: string)
    ensures forall k :: IsSet(ToggleSection(ToggleSection(open, key), key), k) == IsSet(open, k)
  {
    FlipTwice(open, key);
  }

  predicate EndsWithComma(line: string) {
    |line| > 0 && line[|line| - 1] == ','
  }

  function Quoted(s: string): string {
    "\"" + s + "\""
  }

  /** A line without the comma that may end it. */
  function Bare(line: string): string {
    if EndsWithComma(line) then line[..|line| - 1] else line
  }

  /** The line opens a nested object: without its comma, it ends in `{`. */
  predicate Opens(line: string) {
    var b := Bare(line);
    |b| > 0 && b[|b| - 1] == '{'
  }

  /** The line closes a nested object: a lone brace, save its comma. */
  predicate Closes(line: string) {
    Bare(line) == "}"
  }

  /**
    JSON's separator rule for an object laid out one member per line: a line
    carries a comma exactly when it ends a member (it opens no nested object)
    and another member follows (there is a next line and it closes nothing).
  */
  predicate WellSeparated(lines: seq<string>) {
    forall i :: 0 <= i < |lines| ==> SeparatedAt(lines, i)
  }

  /** The rule at line `i`. */
  predicate SeparatedAt(lines: seq<string>, i: nat)
    requires i < |lines|
  {
    EndsWithComma(lines[i]) <==> !Opens(lines[i]) && i + 1 < |lines| && !Closes(lines[i + 1])
  }

  /** Under that rule the last line never ends in a comma. */
  lemma NoTrailingComma(lines: seq<string>)
    requires WellSeparated(lines) && |lines| > 0
    ensures !EndsWithComma(lines[|lines| - 1])
  {
    assert SeparatedAt(lines, |lines| - 1);
  }

  /** A category's key line: `"name": {` when open, `"name": { ... },` when folded. */
  function Header(name: string, isOpen: bool): (line: string)
    ensures Opens(line) <==> isOpen
    ensures EndsWithComma(line) <==> !isOpen
    ensures !Closes(line)
    ensures |line| > |name| + 2 && line[..|name| + 2] == Quoted(name)
  {
    var line := Quoted(name) + ": " + (if isOpen then "{" else "{ ... },");
    assert line[0] == '"';
    assert !isOpen ==> Bare(line) == Quoted(name) + ": { ... }";
    line
  }

  /** A tool's line, with a comma when another tool follows. */
  function ToolLine(t: Tool, more: bool): (line: string)
    ensures EndsWithComma(line) <==> more
    ensures !Opens(line) && !Closes(line)
    ensures |line| > |t.name| + 2 && line[..|t.name| + 2] == Quoted(t.name)
  {
    var core := Quoted(t.name) + ": " + Quoted(LevelName(t.level));
    var line := core + (if more then "," else "");
    assert line[0] == '"' && core[|core| - 1] == '"';
    assert Bare(line) == core;
    line
  }

  /** A category's closing brace, with a comma unless it is the last category. */
  function Closing(isLast: bool): (line: string)
    ensures Closes(line) && !Opens(line)
    ensures EndsWithComma(line) <==> !isLast
  {
    "}" + (if isLast then "" else ",")
  }

  function ToolLines(tools: seq<Tool>): (lines: seq<string>)
    ensures |lines| == |tools|
    ensures forall j :: 0 <= j < |tools| ==> lines[j] == ToolLine(tools[j], j < |tools| - 1)
  {
    seq(|tools|, i requires 0 <= i < |tools| => ToolLine(tools[i], i < |tools| - 1))
  }

  /** The lines one category renders. */
  function RenderCategory(c: Category, isOpen: bool, isLast: bool): (lines: seq<string>)
    ensures isOpen ==> |lines| == |c.tools| + 2
    ensures !isOpen ==> |lines| == 1
    ensures lines[0] == Header(c.name, isOpen)
    ensures isOpen ==> forall j :: 0 <= j < |c.tools| ==>
      lines[j + 1] == ToolLine(c.tools[j], j < |c.tools| - 1)
    ensures isOpen ==> lines[|c.tools| + 1] == Closing(isLast)
  {
    if isOpen then
      var tools := ToolLines(c.tools);
      Framed(Header(c.name, true), tools, Closing(isLast));
      [Header(c.name, true)] + tools + [Closing(isLast)]
    else [Header(c.name, false)]
  }

  /** Where the lines of a block framed by a first and a last line sit. */
  lemma Framed<T>(first: T, middle: seq<T>, last: T)
    ensures var b := [first] + middle + [last];
      && |b| == |middle| + 2 && b[0] == first && b[|middle| + 1] == last
      && forall j :: 0 <= j < |middle| ==> b[j + 1] == middle[j]
  {
  }

  /** Within an open category, a comma follows tool `i` exactly when it is not the last tool. */
  lemma ToolCommaIff(c: Category, isLast: bool, i: nat)
    requires i < |c.tools|
    ensures RenderCategory(c, true, isLast)[i + 1] == ToolLines(c.tools)[i]
    ensures EndsWithComma(ToolLines(c.tools)[i]) <==> i < |c.tools| - 1
  {
    var more := i < |c.tools| - 1;
    var line := ToolLine(c.tools[i], more);
    if !more {
      assert line[|line| - 1] == '"';
    }
  }

  /**
    An open category's closing brace carries a comma exactly when the
    category is not the last; a folded category always ends in `},`, even
    when it is the last.
  */
  lemma BraceCommas(c: Category, isLast: bool)
    ensures EndsWithComma(RenderCategory(c, true, isLast)[|c.tools| + 1]) <==> !isLast
    ensures !EndsWithComma(RenderCategory(c, true, isLast)[0])
    ensures EndsWithComma(RenderCategory(c, false, isLast)[0])
  {
  }

  /** The object's body: every category, the last one knowing it is last. */
  function Render(cats: seq<Category>, open: FlagMap): (lines: seq<string>)
    ensures |lines| == 0 <==> |cats| == 0
    ensures |cats| > 0 ==> lines[0] == Header(cats[0].name, IsSet(open, cats[0].name))
    // the object's last line ends in a comma exactly when the last category is folded
    ensures |cats| > 0 ==>
      (EndsWithComma(lines[|lines| - 1]) <==> !IsSet(open, cats[|cats| - 1].name))
  {
    if |cats| == 0 then []
    else
      var rest := Render(cats[1..], open);
      RenderJoin(cats, open, rest);
      RenderCategory(cats[0], IsSet(open, cats[0].name), |cats| == 1) + rest
  }

  /** How the first category's block and the rest's lines add up to the facts `Render` states. */
  lemma RenderJoin(cats: seq<Category>, open: FlagMap, rest: seq<string>)
    requires |cats| > 0
    requires |rest| == 0 <==> |cats| == 1
    requires |cats| > 1 ==>
      (EndsWithComma(rest[|rest| - 1]) <==> !IsSet(open, cats[1..][|cats[1..]| - 1].name))
    ensures var lines := RenderCategory(cats[0], IsSet(open, cats[0].name), |cats| == 1) + rest;
      && |lines| > 0
      && lines[0] == Header(cats[0].name, IsSet(open, cats[0].name))
      && (EndsWithComma(lines[|lines| - 1]) <==> !IsSet(open, cats[|cats| - 1].name))
  {
    var isOpen := IsSet(open, cats[0].name);
    var block := RenderCategory(cats[0], isOpen, |cats| == 1);
    LastLine(cats[0], isOpen, |cats| == 1);
    LastOfAppend(block, rest);
    assert |cats| > 1 ==> cats[1..][|cats[1..]| - 1] == cats[|cats| - 1];
  }

  /** The last line of a category's block: a comma after it exactly when it is folded or not last. */
  lemma LastLine(c: Category, isOpen: bool, isLast: bool)
    ensures var b := RenderCategory(c, isOpen, isLast);
      EndsWithComma(b[|b| - 1]) <==> !isOpen || !isLast
  {
    if isOpen {
      assert RenderCategory(c, isOpen, isLast)[|c.tools| + 1] == Closing(isLast);
    }
  }

  lemma LastOfAppend<T>(a: seq<T>, b: seq<T>)
    requires |a| > 0
    ensures |b| > 0 ==> (a + b)[|a + b| - 1] == b[|b| - 1]
    ensures |b| == 0 ==> a + b == a
  {
  }

  function CommaCount(lines: seq<string>): nat {
    if |lines| == 0 then 0 else (if EndsWithComma(lines[0]) then 1 else 0) + CommaCount(lines[1..])
  }

  lemma {:induction false} CommaCountAppend(a: seq<string>, b: seq<string>)
    ensures CommaCount(a + b) == CommaCount(a) + CommaCount(b)
  {
    if |a| > 0 {
      assert (a + b)[1..] == a[1..] + b;
      CommaCountAppend(a[1..], b);
    } else {
      assert a + b == b;
    }
  }

  /** The separators JSON needs between the members of a list of `n` members. */
  function Separators(n: nat): nat {
    if n == 0 then 0 else n - 1
  }

  lemma {:induction false} ToolLinesCommas(tools: seq<Tool>)
    ensures CommaCount(ToolLines(tools)) == Separators(|tools|)
  {
    var lines := ToolLines(tools);
    CommaCountUpTo(tools, lines, |lines|);
  }

  lemma {:induction false} CommaCountUpTo(tools: seq<Tool>, lines: seq<string>, k: nat)
    requires lines == ToolLines(tools) && k <= |lines|
    ensures CommaCount(lines[|lines| - k..]) == (if k == 0 then 0 else k - 1)
    decreases k
  {
    if k > 0 {
      var i := |lines| - k;
      CommaCountUpTo(tools, lines, k - 1);
      assert lines[i..][1..] == lines[i + 1..];
      ToolCommaIff(Category("", tools), false, i);
    }
  }

  /** Tool separators across all categories. */
  function ToolSeparators(cats: seq<Category>): nat {
    if |cats| == 0 then 0 else Separators(|cats[0].tools|) + ToolSeparators(cats[1..])
  }

  /**
    With every category open, the rendering has exactly the commas JSON asks
    for: one between neighbouring tools and one between neighbouring categories.
  */
  lemma {:induction false} AllOpenIsWellSeparated(cats: seq<Category>, open: FlagMap)
    requires forall c :: c in cats ==> IsSet(open, c.name)
    ensures CommaCount(Render(cats, open)) == ToolSeparators(cats) + Separators(|cats|)
    ensures WellSeparated(Render(cats, open))
  {
    RenderWellSeparatedIff(cats, open);
    if |cats| > 0 {
      assert cats[|cats| - 1] in cats;
    }
    AllOpenCount(cats, open);
  }

  lemma {:induction false} AllOpenCount(cats: seq<Category>, open: FlagMap)
    requires forall c :: c in cats ==> IsSet(open, c.name)
    ensures CommaCount(Render(cats, open)) == ToolSeparators(cats) + Separators(|cats|)
  {
    if |cats| > 0 {
      var isLast := |cats| == 1;
      assert forall d :: d in cats[1..] ==> d in cats;
      AllOpenCount(cats[1..], open);
      CommaCountAppend(RenderCategory(cats[0], true, isLast), Render(cats[1..], open));
      OpenCategoryCommas(cats[0], isLast);
    }
  }

  /** An open category contributes its tool separators, plus one after its brace unless it is last. */
  lemma OpenCategoryCommas(c: Category, isLast: bool)
    ensures CommaCount(RenderCategory(c, true, isLast)) == Separators(|c.tools|) + (if isLast then 0 else 1)
  {
    CommaCountAppend([Header(c.name, true)] + ToolLines(c.tools), [Closing(isLast)]);
    CommaCountAppend([Header(c.name, true)], ToolLines(c.tools));
    ToolLinesCommas(c.tools);
    assert CommaCount([Closing(isLast)]) == (if isLast then 0 else 1);
  }

  /**
    With every category folded, each line ends in a comma, the last one
    included: one comma more than JSON allows.
  */
  lemma {:induction false} AllFoldedTrailingComma(cats: seq<Category>, open: FlagMap)
    requires forall c :: c in cats ==> !IsSet(open, c.name)
    ensures CommaCount(Render(cats, open)) == |cats|
    ensures |Render(cats, open)| == |cats|
    ensures |cats| > 0 ==> CommaCount(Render(cats, open)) == Separators(|cats|) + 1
    ensures |cats| > 0 ==> EndsWithComma(Render(cats, open)[|cats| - 1])
    ensures |cats| > 0 ==> !WellSeparated(Render(cats, open))
  {
    if |cats| > 0 {
      assert cats[|cats| - 1] in cats;
      RenderWellSeparatedIff(cats, open);
    }
    AllFoldedCount(cats, open);
  }

  lemma {:induction false} AllFoldedCount(cats: seq<Category>, open: FlagMap)
    requires forall c :: c in cats ==> !IsSet(open, c.name)
    ensures CommaCount(Render(cats, open)) == |cats|
    ensures |Render(cats, open)| == |cats|
  {
    if |cats| > 0 {
      assert forall d :: d in cats[1..] ==> d in cats;
      assert cats[0] in cats;
      var head := RenderCategory(cats[0], false, |cats| == 1);
      var rest := Render(cats[1..], open);
      AllFoldedCount(cats[1..], open);
      assert Render(cats, open) == head + rest;
      assert head == [Header(cats[0].name, false)];
      assert CommaCount(head) == 1;
      CommaCountAppend(head, rest);
    }
  }

  /** The shipped panel opens with every category unfolded and every comma where JSON puts one. */
  lemma ShippedPanel()
    ensures |Toolchain()| == 7
    ensures CommaCount(Render(Toolchain(), InitSections(Toolchain())))
         == ToolSeparators(Toolchain()) + 6
    ensures WellSeparated(Render(Toolchain(), InitSections(Toolchain())))
  {
    AllOpenIsWellSeparated(Toolchain(), InitSections(Toolchain()));
  }

  /** The folded key line with the comma only between categories, as the closing brace has it. */
  function HeaderCorrected(name: string, isLast: bool): (line: string)
    ensures !Opens(line) && !Closes(line)
    ensures EndsWithComma(line) <==> !isLast
    ensures !isLast ==> line == Header(name, false)
    ensures |line| > |name| + 2 && line[..|name| + 2] == Quoted(name)
  {
    var core := Quoted(name) + ": " + "{ ... }";
    var line := core + (if isLast then "" else ",");
    assert line[0] == '"' && core[|core| - 1] == '}';
    assert Bare(line) == core;
    line
  }

  function RenderCategoryCorrected(c: Category, isOpen: bool, isLast: bool): seq<string> {
    if isOpen then RenderCategory(c, true, isLast) else [HeaderCorrected(c.name, isLast)]
  }

  /**
    One category's block under the separator rule: it starts with a key line,
    each line but its last is separated correctly by the block alone, and its
    last line ends a member, with a comma exactly when a category follows.
  */
  lemma BlockSeparated(c: Category, isOpen: bool, isLast: bool)
    ensures var b := RenderCategoryCorrected(c, isOpen, isLast);
      && |b| > 0 && !Closes(b[0])
      && (forall i :: 0 <= i < |b| - 1 ==> SeparatedAt(b, i))
      && !Opens(b[|b| - 1])
      && (EndsWithComma(b[|b| - 1]) <==> !isLast)
  {
    var b := RenderCategoryCorrected(c, isOpen, isLast);
    if isOpen {
      forall i | 0 <= i < |b| - 1 ensures SeparatedAt(b, i) {
        OpenBlockAt(c, isLast, i);
      }
      assert b[|b| - 1] == Closing(isLast);
    }
  }

  /** Inside an open block, the rule holds at every line but the closing brace. */
  lemma OpenBlockAt(c: Category, isLast: bool, i: nat)
    requires i < |c.tools| + 1
    ensures SeparatedAt(RenderCategory(c, true, isLast), i)
  {
    var b := RenderCategory(c, true, isLast);
    var n := |c.tools|;
    if i > 0 {
      var j := i - 1;
      assert b[i] == ToolLine(c.tools[j], j < n - 1);
      if j < n - 1 {
        assert b[i + 1] == ToolLine(c.tools[j + 1], j + 1 < n - 1);
      } else {
        assert b[i + 1] == Closing(isLast);
      }
    }
  }

  /** A block followed by well-separated lines is well separated when its edges fit. */
  lemma JoinSeparated(b: seq<string>, rest: seq<string>)
    requires |b| > 0 && forall i :: 0 <= i < |b| - 1 ==> SeparatedAt(b, i)
    requires !Opens(b[|b| - 1]) && (EndsWithComma(b[|b| - 1]) <==> |rest| > 0)
    requires |rest| > 0 ==> !Closes(rest[0])
    requires WellSeparated(rest)
    ensures WellSeparated(b + rest)
  {
    var lines := b + rest;
    forall i | 0 <= i < |lines| ensures SeparatedAt(lines, i) {
      if i < |b| - 1 {
        assert SeparatedAt(b, i);
        assert lines[i] == b[i] && lines[i + 1] == b[i + 1];
      } else if i == |b| - 1 {
        assert lines[i] == b[i];
        if |rest| > 0 {
          assert lines[i + 1] == rest[0];
        }
      } else {
        var k := i - |b|;
        assert SeparatedAt(rest, k);
        assert lines[i] == rest[k];
        if k + 1 < |rest| {
          assert lines[i + 1] == rest[k + 1];
        }
      }
    }
  }

  function RenderCorrected(cats: seq<Category>, open: FlagMap): (lines: seq<string>)
    ensures |lines| == 0 <==> |cats| == 0
    ensures |cats| > 0 ==> !Closes(lines[0])
  {
    if |cats| == 0 then []
    else
      BlockSeparated(cats[0], IsSet(open, cats[0].name), |cats| == 1);
      RenderCategoryCorrected(cats[0], IsSet(open, cats[0].name), |cats| == 1)
      + RenderCorrected(cats[1..], open)
  }

  /** The corrected rendering keeps the separator rule at every line, for every fold state. */
  lemma {:induction false} CorrectedPositions(cats: seq<Category>, open: FlagMap)
    ensures WellSeparated(RenderCorrected(cats, open))
  {
    if |cats| > 0 {
      var isLast := |cats| == 1;
      var isOpen := IsSet(open, cats[0].name);
      var b := RenderCategoryCorrected(cats[0], isOpen, isLast);
      var rest := RenderCorrected(cats[1..], open);
      assert RenderCorrected(cats, open) == b + rest;
      CorrectedPositions(cats[1..], open);
      BlockSeparated(cats[0], isOpen, isLast);
      assert |rest| > 0 <==> !isLast;
      JoinSeparated(b, rest);
    }
  }

  /** As written and corrected render the same lines unless the last category is folded. */
  lemma {:induction false} RenderMatchesCorrected(cats: seq<Category>, open: FlagMap)
    requires |cats| == 0 || IsSet(open, cats[|cats| - 1].name)
    ensures Render(cats, open) == RenderCorrected(cats, open)
  {
    if |cats| > 1 {
      assert cats[1..][|cats[1..]| - 1] == cats[|cats| - 1];
      RenderMatchesCorrected(cats[1..], open);
    }
  }

  /**
    The rendering as written keeps the separator rule exactly when the last
    category is open: folding the last category breaks it.
  */
  lemma RenderWellSeparatedIff(cats: seq<Category>, open: FlagMap)
    ensures WellSeparated(Render(cats, open)) <==> |cats| == 0 || IsSet(open, cats[|cats| - 1].name)
  {
    if |cats| == 0 || IsSet(open, cats[|cats| - 1].name) {
      RenderMatchesCorrected(cats, open);
      CorrectedPositions(cats, open);
    } else if WellSeparated(Render(cats, open)) {
      NoTrailingComma(Render(cats, open));
    }
  }

  /** Tool separators across the open categories only. */
  function OpenToolSeparators(cats: seq<Category>, open: FlagMap): nat {
    if |cats| == 0 then 0
    else (if IsSet(open, cats[0].name) then Separators(|cats[0].tools|) else 0)
         + OpenToolSeparators(cats[1..], open)
  }

  /**
    With the corrected key line, every fold state renders exactly the commas
    JSON asks for: between the tools of each open category and between
    neighbouring categories, never after the last.
  */
  lemma {:induction false} CorrectedIsWellSeparated(cats: seq<Category>, open: FlagMap)
    ensures CommaCount(RenderCorrected(cats, open)) == OpenToolSeparators(cats, open) + Separators(|cats|)
    ensures WellSeparated(RenderCorrected(cats, open))
    ensures |cats| > 0 ==> !EndsWithComma(RenderCorrected(cats, open)[|RenderCorrected(cats, open)| - 1])
  {
    CorrectedPositions(cats, open);
    if |cats| > 0 {
      NoTrailingComma(RenderCorrected(cats, open));
    }
    CorrectedCount(cats, open);
  }

  lemma {:induction false} CorrectedCount(cats: seq<Category>, open: FlagMap)
    ensures CommaCount(RenderCorrected(cats, open)) == OpenToolSeparators(cats, open) + Separators(|cats|)
  {
    if |cats| > 0 {
      var c := cats[0];
      var isLast := |cats| == 1;
      var isOpen := IsSet(open, c.name);
      CorrectedCount(cats[1..], open);
      CommaCountAppend(RenderCategoryCorrected(c, isOpen, isLast), RenderCorrected(cats[1..], open));
      if isOpen {
        OpenCategoryCommas(c, isLast);
      }
    }
  }

  /** With every category open, the correction changes nothing. */
  lemma {:induction false} CorrectedAgreesWhenOpen(cats: seq<Category>, open: FlagMap)
    requires forall c :: c in cats ==> IsSet(open, c.name)
    ensures RenderCorrected(cats, open) == Render(cats, open)
  {
    if |cats| > 0 {
      assert forall d :: d in cats[1..] ==> d in cats;
      CorrectedAgreesWhenOpen(cats[1..], open);
    }
  }

  lemma {:induction false} AllFoldedNoToolSeparators(cats: seq<Category>, open: FlagMap)
    requires forall c :: c in cats ==> !IsSet(open, c.name)
    ensures OpenToolSeparators(cats, open) == 0
  {
    if |cats| > 0 {
      assert forall d :: d in cats[1..] ==> d in cats;
      AllFoldedNoToolSeparators(cats[1..], open);
    }
  }

  /**
    Folding all seven shipped categories renders seven commas where JSON has
    room for six; the corrected key line renders six.
  */
  lemma ShippedAllFolded()
    ensures CommaCount(Render(Toolchain(), map[])) == 7
    ensures CommaCount(RenderCorrected(Toolchain(), map[])) == 6
  {
    var cats := Toolchain();
    assert |cats| == 7;
    FoldedCounts(cats, map[]);
  }

  /** With every category folded: one comma per category as written, one fewer when corrected. */
  lemma FoldedCounts(cats: seq<Category>, open: FlagMap)
    requires forall c :: c in cats ==> !IsSet(open, c.name)
    ensures CommaCount(Render(cats, open)) == |cats|
    ensures CommaCount(RenderCorrected(cats, open)) == Separators(|cats|)
  {
    AllFoldedCount(cats, open);
    AllFoldedNoToolSeparators(cats, open);
    CorrectedIsWellSeparated(cats, open);
  }
}

=== FILE: status_line.dfy ===
/**
  The status line at the bottom of the shell: a one-line prompt whose
  commands print into a drawer of output entries. Commands are matched on
  their lower-cased, trimmed text; the echo and error lines quote the text as
  typed. Effects on the rest of the page are returned, not performed.
*/
module StatusLine {

  import opened Strings

  datatype EntryKind = Info | Success | Error | System

  datatype Entry = Entry(kind: EntryKind, text: string)

  datatype Mode = Normal | Insert

  datatype Term = Term(input: string, mode: Mode, output: seq<Entry>, isOutputOpen: bool)

  /** What a command asks of the page outside the terminal. */
  datatype Effect =
    | OpenPalette   // `ls`: setCmdPalette(true), after a delay in the source
    | MatrixColors  // `matrix`: the three CSS colour variables are overwritten

  datatype Executed = Executed(term: Term, effects: seq<Effect>)

  datatype Command = Help | Ls | Clear | Weather | Whoami | Date | Matrix | Exit | NotFound

  function Init(): (t: Term)
    ensures t.output == [] && !t.isOutputOpen && t.input == "" && t.mode == Normal
  {
    Term("", Normal, [], false)
  }

  /** Text in the interpreter's normal form: no ASCII capital, no white space at either end. */
  predicate Normalized(s: string) {
    && (|s| == 0 || (!IsSpace(s[0]) && !IsSpace(s[|s| - 1])))
    && forall i :: 0 <= i < |s| ==> !('A' <= s[i] <= 'Z')
  }

  /** The text the interpreter switches on: normalised, and empty exactly for blank input. */
  function Normalize(cmd: string): (r: string)
    ensures |r| <= |cmd|
    ensures Normalized(r)
    ensures r == [] <==> AllSpace(cmd)
  {
    NormalizeFacts(cmd);
    NormalizedTrim(cmd);
    Trim(ToLower(cmd))
  }

  lemma NormalizeFacts(cmd: string)
    ensures var r := Trim(ToLower(cmd));
      && |r| <= |cmd|
      && (r == [] <==> AllSpace(cmd))
  {
    SameSpacing(cmd);
    assert AllSpace(ToLower(cmd)) <==> AllSpace(cmd);
  }

  /** Trimming lower-cased text leaves it in normal form. */
  lemma NormalizedTrim(cmd: string)
    ensures Normalized(Trim(ToLower(cmd)))
  {
    var l := ToLower(cmd);
    assert forall i :: 0 <= i < |l| ==> !('A' <= l[i] <= 'Z') by {
      ToLowerIdempotent(cmd);
    }
    NoCapitalTrim(l);
  }

  /** Trimming adds no capital letter. */
  lemma NoCapitalTrim(l: string)
    requires forall i :: 0 <= i < |l| ==> !('A' <= l[i] <= 'Z')
    ensures forall i :: 0 <= i < |Trim(l)| ==> !('A' <= Trim(l)[i] <= 'Z')
  {
    var r := Trim(l);
    TrimKeepsChars(l);
    forall i | 0 <= i < |r| ensures !('A' <= r[i] <= 'Z') {
      assert r[i] in l;
      var j :| 0 <= j < |l| && l[j] == r[i];
    }
  }

  /** The word that selects a known command. */
  function Keyword(c: Command): string
    requires c != NotFound
  {
    match c
    case Help => "help"
    case Ls => "ls"
    case Clear => "clear"
    case Weather => "weather"
    case Whoami => "whoami"
    case Date => "date"
    case Matrix => "matrix"
    case Exit => "exit"
  }

  function Lookup(word: string): Command {
    if word == "help" then Help
    else if word == "ls" then Ls
    else if word == "clear" then Clear
    else if word == "weather" then Weather
    else if word == "whoami" then Whoami
    else if word == "date" then Date
    else if word == "matrix" then Matrix
    else if word == "exit" then Exit
    else NotFound
  }

  /** The command a typed line selects: a known command only through its own keyword. */
  function Parse(cmd: string): (c: Command)
    ensures c != NotFound ==> Normalize(cmd) == Keyword(c)
  {
    var c := Lookup(Normalize(cmd));
    if c != NotFound then
      LookupKeyword(c, Normalize(cmd));
      c
    else c
  }

  /** A line selects a known command exactly when it normalises to that command's keyword. */
  lemma ParseKeyword(cmd: string, d: Command)
    requires d != NotFound
    ensures Parse(cmd) == d <==> Normalize(cmd) == Keyword(d)
  {
    LookupKeyword(d, Normalize(cmd));
  }

  /** The lookup table and the keywords agree: each word selects its own command and no other. */
  lemma LookupKeyword(c: Command, word: string)
    requires c != NotFound
    ensures Lookup(Keyword(c)) == c
    ensures Lookup(word) == c <==> word == Keyword(c)
  {
  }

  /** Exactly the words that are no keyword fall through to "not found". */
  lemma NotFoundIff(word: string)
    ensures Lookup(word) == NotFound <==> forall d :: d != NotFound ==> word != Keyword(d)
  {
    if Lookup(word) != NotFound {
      LookupKeyword(Lookup(word), word);
    } else {
      forall d | d != NotFound ensures word != Keyword(d) {
        LookupKeyword(d, word);
      }
    }
  }

  const Prompt: string := "root@system:~$ "

  const HelpLines: seq<string> :=
    [ "AVAILABLE COMMANDS:",
      "  ls       :: Open file explorer",
      "  clear    :: Clear terminal output",
      "  weather  :: Check local atmospheric sensors",
      "  whoami   :: Current user identity",
      "  date     :: System timestamp",
      "  matrix   :: Toggle high-contrast mode",
      "  exit     :: Close terminal drawer" ]

  function NotFoundLine(cmd: string): string {
    "Command not found: " + cmd + ". Type 'help' for available commands."
  }

  function Infos(lines: seq<string>): (entries: seq<Entry>)
    ensures |entries| == |lines|
    ensures forall i :: 0 <= i < |entries| ==> entries[i] == Entry(Info, lines[i])
  {
    seq(|lines|, i requires 0 <= i < |lines| => Entry(Info, lines[i]))
  }

  const LsLine: string := "Executing file_picker.exe..."
  const UplinkLine: string := "Connecting to NOAA satellite uplink..."
  const MarsLine: string := "LOC: ERR // MARS WEATHER UNAVAILABLE"
  const WhoamiLine: string := "uid=0(root) gid=0(root) groups=0(root)"
  const MatrixLine: string := "Color scheme updated: MATRIX_MODE"

  /** How many entries each command appends after its echo (a reference table). */
  function ReplyCount(c: Command): nat {
    match c
    case Help => 8
    case Weather => 2
    case Clear => 0
    case Exit => 0
    case _ => 1
  }

  /**
    The entries a command appends after its echo: as many as the table says,
    and an error entry exactly for an unknown command.
  */
  function Replies(c: Command, cmd: string, now: string): (r: seq<Entry>)
    ensures |r| == ReplyCount(c)
    ensures forall i :: 0 <= i < |r| ==> (r[i].kind == Error <==> c == NotFound)
  {
    assert |HelpLines| == 8;
    match c
    case Help => Infos(HelpLines)
    case Ls => [Entry(Success, LsLine)]
    case Clear => []
    case Weather => [Entry(Info, UplinkLine), Entry(Success, MarsLine)]
    case Whoami => [Entry(Success, WhoamiLine)]
    case Date => [Entry(Success, now)]
    case Matrix => [Entry(Success, MatrixLine)]
    case Exit => []
    case NotFound => [Entry(Error, NotFoundLine(cmd))]
  }

  /** The echo line every command starts with. */
  function Echo(cmd: string): Entry {
    Entry(System, Prompt + cmd)
  }

  /** What command `c`, typed as `cmd`, does to the terminal. */
  function Apply(t: Term, c: Command, cmd: string, now: string): (r: Executed)
    ensures r.term.input == t.input && r.term.mode == t.mode
    ensures c == Clear ==> r.term.output == [] && !r.term.isOutputOpen
    ensures c == Exit ==> r.term.output == t.output + [Echo(cmd)] && !r.term.isOutputOpen
    ensures c != Clear && c != Exit ==>
      && r.term.isOutputOpen
      && |r.term.output| == |t.output| + 1 + ReplyCount(c)
      && r.term.output[..|t.output| + 1] == t.output + [Echo(cmd)]
    // the whole output of each command that prints
    ensures c == Help ==> r.term.output == t.output + [Echo(cmd)] + Infos(HelpLines)
    ensures c == Ls ==> r.term.output == t.output + [Echo(cmd)] + [Entry(Success, LsLine)]
    ensures c == Weather ==>
      r.term.output == t.output + [Echo(cmd)] + [Entry(Info, UplinkLine), Entry(Success, MarsLine)]
    ensures c == Whoami ==> r.term.output == t.output + [Echo(cmd)] + [Entry(Success, WhoamiLine)]
    ensures c == Date ==> r.term.output == t.output + [Echo(cmd)] + [Entry(Success, now)]
    ensures c == Matrix ==> r.term.output == t.output + [Echo(cmd)] + [Entry(Success, MatrixLine)]
    ensures c == NotFound ==>
      r.term.output == t.output + [Echo(cmd)] + [Entry(Error, NotFoundLine(cmd))]
    ensures OpenPalette in r.effects <==> c == Ls
    ensures MatrixColors in r.effects <==> c == Matrix
  {
    var echoed := t.output + [Echo(cmd)];
    var effects := if c == Ls then [OpenPalette] else if c == Matrix then [MatrixColors] else [];
    if c == Clear then Executed(t.(output := [], isOutputOpen := false), effects)
    else if c == Exit then Executed(t.(output := echoed, isOutputOpen := false), effects)
    else
      var replies := Replies(c, cmd, now);
      var out := echoed + replies;
      AppendFacts(echoed, replies);
      Executed(t.(output := out, isOutputOpen := true), effects)
  }

  /** Where the entries of `a + b` come from. */
  lemma AppendFacts<T>(a: seq<T>, b: seq<T>)
    ensures |a + b| == |a| + |b| && (a + b)[..|a|] == a
    ensures forall i :: 0 <= i < |b| ==> (a + b)[|a| + i] == b[i]
  {
  }

  /**
    `executeCommand`: echo the command as typed and open the drawer, then act
    on its normalised text. `now` is the text the `date` command prints; the
    clock is outside this model.
  */
  function Execute(t: Term, cmd: string, now: string): (r: Executed)
    ensures r.term.input == t.input && r.term.mode == t.mode
    // `clear` empties the drawer, echo included, and closes it
    ensures Parse(cmd) == Clear ==> r.term.output == [] && !r.term.isOutputOpen
    // `exit` keeps every entry, echo included, and closes the drawer
    ensures Parse(cmd) == Exit ==> r.term.output == t.output + [Echo(cmd)] && !r.term.isOutputOpen
    // everything else: echo, then exactly ReplyCount entries, drawer open
    ensures Parse(cmd) != Clear && Parse(cmd) != Exit ==>
      && r.term.isOutputOpen
      && |r.term.output| == |t.output| + 1 + ReplyCount(Parse(cmd))
      && r.term.output[..|t.output| + 1] == t.output + [Echo(cmd)]
    // the whole output of each command that prints
    ensures Parse(cmd) == Help ==> r.term.output == t.output + [Echo(cmd)] + Infos(HelpLines)
    ensures Parse(cmd) == Ls ==> r.term.output == t.output + [Echo(cmd)] + [Entry(Success, LsLine)]
    ensures Parse(cmd) == Weather ==>
      r.term.output == t.output + [Echo(cmd)] + [Entry(Info, UplinkLine), Entry(Success, MarsLine)]
    ensures Parse(cmd) == Whoami ==> r.term.output == t.output + [Echo(cmd)] + [Entry(Success, WhoamiLine)]
    ensures Parse(cmd) == Date ==> r.term.output == t.output + [Echo(cmd)] + [Entry(Success, now)]
    ensures Parse(cmd) == Matrix ==> r.term.output == t.output + [Echo(cmd)] + [Entry(Success, MatrixLine)]
    ensures Parse(cmd) == NotFound ==>
      r.term.output == t.output + [Echo(cmd)] + [Entry(Error, NotFoundLine(cmd))]
    ensures OpenPalette in r.effects <==> Parse(cmd) == Ls
    ensures MatrixColors in r.effects <==> Parse(cmd) == Matrix
  {
    Apply(t, Parse(cmd), cmd, now)
  }

  /** Typing into the prompt. */
  function SetInput(t: Term, text: string): (r: Term)
    ensures r.input == text && r.(input := t.input) == t
  {
    t.(input := text)
  }

  /** Focusing the prompt shows INSERT; leaving it shows NORMAL. */
  function Focus(t: Term, focused: bool): (r: Term)
    ensures r.mode == Insert <==> focused
    ensures r.(mode := t.mode) == t
  {
    t.(mode := if focused then Insert else Normal)
  }

  /** The drawer's close button. */
  function CloseDrawer(t: Term): (r: Term)
    ensures !r.isOutputOpen && r.(isOutputOpen := t.isOutputOpen) == t
  {
    t.(isOutputOpen := false)
  }

  /**
    `handleSubmit`: only the empty string is ignored (white space is not
    trimmed first); otherwise run it, empty the prompt and show NORMAL.
  */
  function Submit(t: Term, now: string): (r: Executed)
    ensures t.input == "" ==> r == Executed(t, [])
    ensures t.input != "" ==> r.term.input == "" && r.term.mode == Normal
    ensures t.input != "" ==>
      r.term.(input := t.input, mode := t.mode) == Execute(t, t.input, now).term
    // the executed command's requests reach the page unchanged
    ensures t.input != "" ==> r.effects == Execute(t, t.input, now).effects
  {
    if t.input == "" then Executed(t, [])
    else
      var e := Execute(t, t.input, now);
      Executed(e.term.(input := "", mode := Normal), e.effects)
  }

  /** Commands differing only in letter case and surrounding blanks do the same thing. */
  lemma CaseAndBlanksIgnored(t: Term, a: string, b: string, now: string)
    requires Normalize(a) == Normalize(b)
    ensures Execute(t, a, now).term.isOutputOpen == Execute(t, b, now).term.isOutputOpen
    ensures |Execute(t, a, now).term.output| == |Execute(t, b, now).term.output|
    ensures Execute(t, a, now).effects == Execute(t, b, now).effects
  {
    var c := Parse(a);
    assert Parse(b) == c;
    assert Execute(t, a, now) == Apply(t, c, a, now);
    assert Execute(t, b, now) == Apply(t, c, b, now);
    ApplyIgnoresText(t, c, a, b, now);
  }

  /** Once the command is chosen, the text it was typed as shapes only the echo and the error line. */
  lemma ApplyIgnoresText(t: Term, c: Command, a: string, b: string, now: string)
    ensures Apply(t, c, a, now).term.isOutputOpen == Apply(t, c, b, now).term.isOutputOpen
    ensures |Apply(t, c, a, now).term.output| == |Apply(t, c, b, now).term.output|
    ensures Apply(t, c, a, now).effects == Apply(t, c, b, now).effects
  {
  }

  /** " HELP " is `help`: the drawer opens with the echo and the eight help lines. */
  lemma PaddedHelpIsHelp(t: Term, now: string)
    ensures Parse(" HELP ") == Help
    ensures |Execute(t, " HELP ", now).term.output| == |t.output| + 9
  {
    ParsePaddedHelp();
    var r := Execute(t, " HELP ", now);
    assert |r.term.output| == |t.output| + 1 + ReplyCount(Help);
  }

  lemma ParsePaddedHelp()
    ensures Parse(" HELP ") == Help
  {
    LowerPaddedHelp();
    TrimPaddedHelp();
    assert Normalize(" HELP ") == "help";
  }

  lemma LowerPaddedHelp()
    ensures ToLower(" HELP ") == " help "
  {
    var l := ToLower(" HELP ");
    assert l[0] == ' ' && l[1] == 'h' && l[2] == 'e' && l[3] == 'l' && l[4] == 'p' && l[5] == ' ';
  }

  lemma TrimPaddedHelp()
    ensures Trim(" help ") == "help"
  {
    assert " help "[1..] == "help ";
    assert LeadingSpace(" help ") == 1;
    assert TrimStart(" help ") == "help ";
    assert "help "[..4] == "help";
    assert TrailingSpace("help ") == 1;
  }

  /** A blank line is not a command: it echoes and then reports "not found". */
  lemma BlankIsNotFound(t: Term, cmd: string, now: string)
    requires cmd != "" && AllSpace(cmd)
    ensures Parse(cmd) == NotFound
    ensures Submit(t.(input := cmd), now).term.output
         == t.output + [Echo(cmd), Entry(Error, NotFoundLine(cmd))]
  {
    assert Normalize(cmd) == [];
    var t1 := t.(input := cmd);
    assert Execute(t1, cmd, now) == Apply(t1, NotFound, cmd, now);
    NotFoundOutput(t1, cmd, now);
  }

  lemma NotFoundOutput(t: Term, cmd: string, now: string)
    ensures Apply(t, NotFound, cmd, now).term.output == t.output + [Echo(cmd), Entry(Error, NotFoundLine(cmd))]
  {
    assert t.output + [Echo(cmd)] + [Entry(Error, NotFoundLine(cmd))]
        == t.output + [Echo(cmd), Entry(Error, NotFoundLine(cmd))];
  }

  /** Whatever runs after a `clear`, the drawer holds only what came after it. */
  lemma ClearForgets(t: Term, now: string)
    ensures Execute(t, "clear", now).term == Init().(input := t.input, mode := t.mode)
  {
    ParseClear();
  }

  /** The word "clear" as typed selects `clear`. */
  lemma ParseClear()
    ensures Parse("clear") == Clear
  {
    assert Normalized("clear");
    NormalizeOfNormalized("clear");
    ParseKeyword("clear", Clear);
  }

  /** Text already in normal form normalises to itself. */
  lemma NormalizeOfNormalized(s: string)
    requires Normalized(s)
    ensures Normalize(s) == s
  {
    assert ToLower(s) == s;
    TrimOfTrimmed(s);
  }
}

=== FILE: strings.dfy ===
/**
  The three string primitives the shell's interpreters lean on, written out
  because Dafny has no string library here:
  - `Trim`, as ECMAScript's String.prototype.trim (strip white space and line
    terminators from both ends);
  - `ToLower`, as String.prototype.toLowerCase restricted to ASCII letters;
  - `Contains`, as String.prototype.includes (substring search).
*/
module Strings {

  import opened Wrappers

  /** The code points ECMAScript classes as WhiteSpace or LineTerminator. */
  predicate IsSpace(c: char) {
    var n := c as int;
    || n == 0x09 || n == 0x0A || n == 0x0B || n == 0x0C || n == 0x0D || n == 0x20
    || n == 0xA0 || n == 0x1680 || (0x2000 <= n <= 0x200A)
    || n == 0x2028 || n == 0x2029 || n == 0x202F || n == 0x205F
    || n == 0x3000 || n == 0xFEFF
  }

  predicate AllSpace(s: string) {
    forall i :: 0 <= i < |s| ==> IsSpace(s[i])
  }

  /** Length of the run of white space at the front of `s`. */
  function LeadingSpace(s: string): (k: nat)
    ensures k <= |s|
    ensures forall i :: 0 <= i < k ==> IsSpace(s[i])
    ensures k == |s| || !IsSpace(s[k])
  {
    if |s| > 0 && IsSpace(s[0]) then 1 + LeadingSpace(s[1..]) else 0
  }

  /** Length of the run of white space at the back of `s`. */
  function TrailingSpace(s: string): (k: nat)
    ensures k <= |s|
    ensures forall i :: |s| - k <= i < |s| ==> IsSpace(s[i])
    ensures k == |s| || !IsSpace(s[|s| - k - 1])
  {
    if |s| > 0 && IsSpace(s[|s| - 1]) then 1 + TrailingSpace(s[..|s| - 1]) else 0
  }

  /** String.prototype.trimStart: drop the white space at the front. */
  function TrimStart(s: string): (r: string)
    ensures |r| == 0 || !IsSpace(r[0])
    ensures |r| <= |s|
    ensures s == s[..|s| - |r|] + r && AllSpace(s[..|s| - |r|])
  {
    s[LeadingSpace(s)..]
  }

  /** String.prototype.trimEnd: drop the white space at the back. */
  function TrimEnd(s: string): (r: string)
    ensures |r| == 0 || !IsSpace(r[|r| - 1])
    ensures |r| <= |s|
    ensures s == r + s[|r|..] && AllSpace(s[|r|..])
  {
    s[..|s| - TrailingSpace(s)]
  }

  /**
    String.prototype.trim: the infix of `s` that neither starts nor ends with
    white space, obtained by cutting only white space away.
  */
  function Trim(s: string): (r: string)
    ensures |r| == 0 || (!IsSpace(r[0]) && !IsSpace(r[|r| - 1]))
    ensures exists i :: 0 <= i <= |s| - |r| && s[i..i + |r|] == r
                        && AllSpace(s[..i]) && AllSpace(s[i + |r|..])
    ensures r == [] <==> AllSpace(s)
  {
    var rest := TrimStart(s);
    var r := TrimEnd(rest);
    var front := |s| - |rest|;
    assert s == s[..front] + rest;
    assert rest == r + rest[|r|..];
    assert s[front..front + |r|] == r;
    assert s[front + |r|..] == rest[|r|..];
    assert AllSpace(s[..front]) && AllSpace(s[front + |r|..]);
    assert |r| > 0 ==> r[0] == rest[0];
    assert |rest| > 0 ==> rest[0] == s[front] && !IsSpace(s[front]);
    assert |r| == 0 ==> rest[|r|..] == rest;
    assert |rest| == 0 ==> s == s[..front];
    r
  }

  /** Every character of the trimmed text comes from the input. */
  lemma TrimKeepsChars(s: string)
    ensures forall i :: 0 <= i < |Trim(s)| ==> Trim(s)[i] in s
  {
    var rest := TrimStart(s);
    var r := TrimEnd(rest);
    var front := |s| - |rest|;
    forall i | 0 <= i < |r| ensures r[i] in s {
      assert r[i] == rest[i];
      assert rest[i] == s[front + i];
    }
  }

  /** Trimming a trimmed string changes nothing. */
  lemma TrimIdempotent(s: string)
    ensures Trim(Trim(s)) == Trim(s)
  {
    TrimOfTrimmed(Trim(s));
  }

  /** A string with no white space at either end is its own trim. */
  lemma TrimOfTrimmed(s: string)
    requires |s| == 0 || (!IsSpace(s[0]) && !IsSpace(s[|s| - 1]))
    ensures Trim(s) == s
  {
    assert s[0..] == s;
    assert s[..|s|] == s;
  }

  /** ASCII upper-case letters map to lower case; everything else is kept. */
  function LowerChar(c: char): (d: char)
    ensures 'A' <= c <= 'Z' ==> d as int == c as int + 32
    ensures !('A' <= c <= 'Z') ==> d == c
  {
    if 'A' <= c <= 'Z' then (c as int + 32) as char else c
  }

  function ToLower(s: string): (r: string)
    ensures |r| == |s|
    ensures forall i :: 0 <= i < |s| ==> r[i] == LowerChar(s[i])
  {
    seq(|s|, i requires 0 <= i < |s| => LowerChar(s[i]))
  }

  /** Lower-casing is idempotent and leaves no ASCII capital behind. */
  lemma ToLowerIdempotent(s: string)
    ensures ToLower(ToLower(s)) == ToLower(s)
    ensures forall i :: 0 <= i < |s| ==> !('A' <= ToLower(s)[i] <= 'Z')
  {
  }

  /** Lower-casing never turns white space into text or back. */
  lemma LowerCharKeepsSpace(c: char)
    ensures IsSpace(LowerChar(c)) <==> IsSpace(c)
  {
  }

  lemma SameSpacing(s: string)
    ensures forall i :: 0 <= i < |s| ==> (IsSpace(ToLower(s)[i]) <==> IsSpace(s[i]))
  {
    forall i | 0 <= i < |s| ensures IsSpace(ToLower(s)[i]) <==> IsSpace(s[i]) {
      LowerCharKeepsSpace(s[i]);
    }
  }

  lemma {:induction false} TrimStartToLower(s: string)
    ensures ToLower(TrimStart(s)) == TrimStart(ToLower(s))
  {
    SameSpacing(s);
    LeadingSame(s, ToLower(s));
  }

  lemma {:induction false} TrimEndToLower(s: string)
    ensures ToLower(TrimEnd(s)) == TrimEnd(ToLower(s))
  {
    SameSpacing(s);
    TrailingSame(s, ToLower(s));
  }

  /**
    The order of trimming and lower-casing does not matter, so StatusLine's
    `toLowerCase().trim()` and Contact's `trim()` then `toLowerCase()` agree.
  */
  lemma {:induction false} TrimToLowerCommute(s: string)
    ensures ToLower(Trim(s)) == Trim(ToLower(s))
  {
    TrimStartToLower(s);
    TrimEndToLower(TrimStart(s));
  }

  lemma {:induction false} LeadingSame(s: string, t: string)
    requires |s| == |t|
    requires forall i :: 0 <= i < |s| ==> (IsSpace(s[i]) <==> IsSpace(t[i]))
    ensures LeadingSpace(s) == LeadingSpace(t)
  {
    if |s| > 0 && IsSpace(s[0]) {
      LeadingSame(s[1..], t[1..]);
    }
  }

  lemma {:induction false} TrailingSame(s: string, t: string)
    requires |s| == |t|
    requires forall i :: 0 <= i < |s| ==> (IsSpace(s[i]) <==> IsSpace(t[i]))
    ensures TrailingSpace(s) == TrailingSpace(t)
  {
    if |s| > 0 && IsSpace(s[|s| - 1]) {
      TrailingSame(s[..|s| - 1], t[..|t| - 1]);
    }
  }

  predicate StartsWith(s: string, prefix: string) {
    |prefix| <= |s| && s[..|prefix|] == prefix
  }

  /** String.prototype.includes: `needle` occurs somewhere in `hay`. */
  predicate Contains(hay: string, needle: string)
    decreases |hay|
  {
    StartsWith(hay, needle) || (|hay| > 0 && Contains(hay[1..], needle))
  }

  ghost predicate OccursAt(hay: string, needle: string, i: int) {
    0 <= i && i + |needle| <= |hay| && hay[i..i + |needle|] == needle
  }

  /** The search agrees with the declarative meaning of "occurs at some index". */
  lemma {:induction false} ContainsIff(hay: string, needle: string)
    ensures Contains(hay, needle) <==> exists i :: OccursAt(hay, needle, i)
    decreases |hay|
  {
    if StartsWith(hay, needle) {
      assert OccursAt(hay, needle, 0);
    } else if |hay| > 0 {
      ContainsIff(hay[1..], needle);
      if Contains(hay[1..], needle) {
        var i :| OccursAt(hay[1..], needle, i);
        assert hay[1..][i..i + |needle|] == hay[i + 1..i + 1 + |needle|];
        assert OccursAt(hay, needle, i + 1);
      } else {
        forall i | 0 < i ensures !OccursAt(hay, needle, i) {
          if i + |needle| <= |hay| {
            assert hay[1..][i - 1..i - 1 + |needle|] == hay[i..i + |needle|];
            assert !OccursAt(hay[1..], needle, i - 1);
          }
        }
      }
    }
  }

  /** The empty needle occurs in every string. */
  lemma ContainsEmpty(hay: string)
    ensures Contains(hay, "")
  {
  }

  /** The first occurrence of `c` splits `s` around it, if `c` occurs at all. */
  function SplitFirst(s: string, c: char): (r: Option<(string, string)>)
    ensures r.None? <==> c !in s
    ensures r.Some? ==> r.value.0 + [c] + r.value.1 == s && c !in r.value.0
  {
    if |s| == 0 then None
    else if s[0] == c then Some(([], s[1..]))
    else match SplitFirst(s[1..], c)
      case None => None
      case Some(p) => Some(([s[0]] + p.0, p.1))
  }

  /** Splitting a joined pair at a separator absent from the left part recovers the pair. */
  lemma {:induction false} SplitFirstJoin(a: string, c: char, b: string)
    requires c !in a
    ensures SplitFirst(a + [c] + b, c) == Some((a, b))
  {
    if |a| == 0 {
      assert a + [c] + b == [c] + b;
    } else {
      var s := a + [c] + b;
      SplitFirstJoin(a[1..], c, b);
      assert s[0] == a[0] && a[0] != c;
      assert s[1..] == a[1..] + [c] + b;
      assert [a[0]] + a[1..] == a;
    }
  }
}

=== FILE: system_store.dfy ===
/**
  The global UI store of the shell: which file is open, the path shown in the
  header, whether the command palette and the mobile sidebar are open, and
  the fixed list of four files. Every action is a pure record update.
*/
module SystemStore {

  import opened Wrappers

  datatype FileType = Text | Process | Json | Comm

  datatype FileNode = FileNode(id: string, name: string, kind: FileType, path: string)

  datatype State = State(
    currentPath: string,
    activeFile: Option<FileNode>,
    files: seq<FileNode>,
    isCmdPaletteOpen: bool,
    isSidebarOpen: bool
  )

  /** The four files every session starts with. */
  function Files(): seq<FileNode> {
    [ FileNode("1", "README.md", Text, "~/system/README.md"),
      FileNode("2", "projects.exe", Process, "~/user_space/projects.exe"),
      FileNode("3", "config.json", Json, "~/system/config.json"),
      FileNode("4", "connect.sh", Comm, "~/network/connect.sh") ]
  }

  predicate DistinctIds(files: seq<FileNode>) {
    forall i, j :: 0 <= i < j < |files| ==> files[i].id != files[j].id
  }

  predicate HasId(files: seq<FileNode>, id: string) {
    exists i :: 0 <= i < |files| && files[i].id == id
  }

  /** The store as created: nothing open, both overlays closed, at `~/system`. */
  function Init(): (s: State)
    ensures s.activeFile == None
    ensures !s.isCmdPaletteOpen && !s.isSidebarOpen
    ensures s.currentPath == "~/system"
    ensures |s.files| == 4 && DistinctIds(s.files)
    ensures forall id :: HasId(s.files, id) <==> id in {"1", "2", "3", "4"}
  {
    var s := State("~/system", None, Files(), false, false);
    assert s.files[0].id == "1" && s.files[1].id == "2";
    assert s.files[2].id == "3" && s.files[3].id == "4";
    s
  }

  /** Position of the first file carrying `id`, as Array.prototype.find scans. */
  function FindIndex(files: seq<FileNode>, id: string): (r: Option<nat>)
    ensures r.Some? ==> r.value < |files| && files[r.value].id == id
    ensures r.Some? ==> forall j :: 0 <= j < r.value ==> files[j].id != id
    ensures r.None? <==> !HasId(files, id)
  {
    if |files| == 0 then None
    else if files[0].id == id then Some(0)
    else match FindIndex(files[1..], id)
      case None =>
        assert forall j :: 1 <= j < |files| ==> files[j] == files[1..][j - 1];
        None
      case Some(k) =>
        assert files[k + 1] == files[1..][k];
        Some(k + 1)
  }

  function Find(files: seq<FileNode>, id: string): (r: Option<FileNode>)
    ensures r.Some? ==> r.value in files && r.value.id == id
    // like `Array.prototype.find`, the first file carrying the id wins
    ensures r.Some? ==>
      exists k :: 0 <= k < |files| && files[k] == r.value && forall j :: 0 <= j < k ==> files[j].id != id
    ensures r.None? <==> !HasId(files, id)
  {
    match FindIndex(files, id)
    case None => None
    case Some(k) => Some(files[k])
  }

  /** `cd`: only the current path changes. */
  function Cd(s: State, path: string): (r: State)
    ensures r.currentPath == path
    ensures r.activeFile == s.activeFile && r.files == s.files
    ensures r.isCmdPaletteOpen == s.isCmdPaletteOpen && r.isSidebarOpen == s.isSidebarOpen
  {
    s.(currentPath := path)
  }

  /**
    `openFile`: a known id becomes the active file, the path follows it and
    both overlays close; an unknown id leaves the whole store as it was.
  */
  function OpenFile(s: State, id: string): (r: State)
    ensures HasId(s.files, id) ==>
      && r.activeFile.Some? && r.activeFile.value in s.files && r.activeFile.value.id == id
      && r.currentPath == r.activeFile.value.path
      && !r.isCmdPaletteOpen && !r.isSidebarOpen
      && r.files == s.files
    ensures !HasId(s.files, id) ==> r == s
  {
    match Find(s.files, id)
    case None => s
    case Some(f) => s.(activeFile := Some(f), currentPath := f.path,
                       isCmdPaletteOpen := false, isSidebarOpen := false)
  }

  /** `closeFile`: no active file; the path still names the last file opened. */
  function CloseFile(s: State): (r: State)
    ensures r.activeFile == None
    ensures r.currentPath == s.currentPath && r.files == s.files
    ensures r.isCmdPaletteOpen == s.isCmdPaletteOpen && r.isSidebarOpen == s.isSidebarOpen
  {
    s.(activeFile := None)
  }

  function ToggleCmdPalette(s: State): (r: State)
    ensures r.isCmdPaletteOpen != s.isCmdPaletteOpen
    ensures r.(isCmdPaletteOpen := s.isCmdPaletteOpen) == s
  {
    s.(isCmdPaletteOpen := !s.isCmdPaletteOpen)
  }

  function SetCmdPalette(s: State, open: bool): (r: State)
    ensures r.isCmdPaletteOpen == open
    ensures r.(isCmdPaletteOpen := s.isCmdPaletteOpen) == s
  {
    s.(isCmdPaletteOpen := open)
  }

  function ToggleSidebar(s: State): (r: State)
    ensures r.isSidebarOpen != s.isSidebarOpen
    ensures r.(isSidebarOpen := s.isSidebarOpen) == s
  {
    s.(isSidebarOpen := !s.isSidebarOpen)
  }

  function SetSidebar(s: State, open: bool): (r: State)
    ensures r.isSidebarOpen == open
    ensures r.(isSidebarOpen := s.isSidebarOpen) == s
  {
    s.(isSidebarOpen := open)
  }

  /** With distinct ids, the file `openFile` selects is the only one with that id. */
  lemma OpenFileUnique(s: State, id: string, i: nat)
    requires DistinctIds(s.files)
    requires i < |s.files| && s.files[i].id == id
    ensures OpenFile(s, id).activeFile == Some(s.files[i])
    ensures OpenFile(s, id).currentPath == s.files[i].path
  {
  }

  /** Opening the same file again changes nothing. */
  lemma OpenFileIdempotent(s: State, id: string)
    ensures OpenFile(OpenFile(s, id), id) == OpenFile(s, id)
  {
  }

  /** Closing after opening keeps the opened file's path in the header. */
  lemma CloseKeepsLastPath(s: State, id: string)
    requires HasId(s.files, id)
    ensures CloseFile(OpenFile(s, id)).activeFile == None
    ensures CloseFile(OpenFile(s, id)).currentPath == OpenFile(s, id).activeFile.value.path
  {
  }

  /** `cd` twice: the second path wins. */
  lemma CdLastWins(s: State, p: string, q: string)
    ensures Cd(Cd(s, p), q) == Cd(s, q)
  {
  }

  /** Toggling either overlay twice restores the store exactly. */
  lemma TogglesAreInvolutions(s: State)
    ensures ToggleCmdPalette(ToggleCmdPalette(s)) == s
    ensures ToggleSidebar(ToggleSidebar(s)) == s
  {
  }

  /** The setters are idempotent and do not look at the previous flag. */
  lemma SettersIgnorePrior(s: State, open: bool)
    ensures SetCmdPalette(SetCmdPalette(s, open), open) == SetCmdPalette(s, open)
    ensures SetCmdPalette(ToggleCmdPalette(s), open) == SetCmdPalette(s, open)
    ensures SetSidebar(SetSidebar(s, open), open) == SetSidebar(s, open)
    ensures SetSidebar(ToggleSidebar(s), open) == SetSidebar(s, open)
    ensures ToggleCmdPalette(s) == SetCmdPalette(s, !s.isCmdPaletteOpen)
    ensures ToggleSidebar(s) == SetSidebar(s, !s.isSidebarOpen)
  {
  }

  /** One action of the store, as a component would dispatch it. */
  datatype Action =
    | ChangeDir(path: string)
    | Open(id: string)
    | Close
    | FlipPalette
    | PaletteTo(open: bool)
    | FlipSidebar
    | SidebarTo(open: bool)

  /**
    One action: none touches the file list, only open and close change the
    active file, and only `cd` and open move the path.
  */
  function Step(s: State, a: Action): (r: State)
    ensures r.files == s.files
    ensures !a.Open? && !a.Close? ==> r.activeFile == s.activeFile
    ensures a.Close? ==> r.activeFile == None
    ensures !a.Open? && !a.ChangeDir? ==> r.currentPath == s.currentPath
  {
    match a
    case ChangeDir(p) => Cd(s, p)
    case Open(id) => OpenFile(s, id)
    case Close => CloseFile(s)
    case FlipPalette => ToggleCmdPalette(s)
    case PaletteTo(b) => SetCmdPalette(s, b)
    case FlipSidebar => ToggleSidebar(s)
    case SidebarTo(b) => SetSidebar(s, b)
  }

  /** Actions applied in order; without `cd` or open among them, the path stays. */
  function Run(s: State, actions: seq<Action>): (r: State)
    ensures r.files == s.files
    ensures (forall i :: 0 <= i < |actions| ==> !actions[i].Open? && !actions[i].ChangeDir?) ==>
      r.currentPath == s.currentPath
    decreases |actions|
  {
    if |actions| == 0 then s
    else
      assert forall i :: 1 <= i < |actions| ==> actions[1..][i - 1] == actions[i];
      Run(Step(s, actions[0]), actions[1..])
  }

  /** The store's invariant: the fixture is untouched and the active file is one of it. */
  predicate Valid(s: State) {
    && s.files == Files()
    && (s.activeFile.Some? ==> s.activeFile.value in s.files)
  }

  lemma StepPreservesValid(s: State, a: Action)
    requires Valid(s)
    ensures Valid(Step(s, a))
    ensures Step(s, a).files == s.files
  {
  }

  /** Whatever sequence of actions runs from the initial store, the invariant holds. */
  lemma {:induction false} RunPreservesValid(s: State, actions: seq<Action>)
    requires Valid(s)
    ensures Valid(Run(s, actions))
    ensures Run(s, actions).files == Files()
    decreases |actions|
  {
    if |actions| > 0 {
      StepPreservesValid(s, actions[0]);
      RunPreservesValid(Step(s, actions[0]), actions[1..]);
    }
  }

  lemma InitValid()
    ensures Valid(Init())
  {
  }
}

=== FILE: wrappers.dfy ===
/** The optional value used wherever the source writes `T | null` or `T | undefined`. */
module Wrappers {

  datatype Option<+T> = None | Some(value: T)
}
